=== FILE: README.md ===
# Marketplace backend: users, offers and their two front ends

This project models the core of a small second-hand marketplace backend. The backend keeps two collections in a document store:

- **users**: an e-mail, a password hash with its salt, a session token and an account profile;
- **offers**: a title, a description, a price, five attribute slots, an image and an owner.

Two front ends run the same operations on the same store:

- **GraphQL resolvers.** They either return a value or throw an error with a message.
- **REST routes.** They answer with an HTTP status and a JSON body.

The model keeps one in-memory `Database.Store`, a class with `users`, `offers` and an id counter. Its invariant `Valid()` bundles two sets of rules:

- **User rules** (`UserModel.ValidUsers`): required fields are non-empty, e-mails are unique, ids are unique.
- **Offer rules** (`OfferModel.ValidOffers`): every record is well-formed, ids are unique, every owner exists.

Each handler is a module-level method that takes the store as a parameter (for example `GraphqlResolvers.Signup(store, …)`), or a function of the stored collections when it only reads.

**Inputs.** Handlers receive JavaScript values (`Common.Value`, a map of fields read with `Get`). Branches test JavaScript truthiness (`Common.Truthy`).

**Validators.** The Joi request schemas are predicates over those maps: `UserValidators.SignupSchema`, `UserValidators.LoginSchema`, `OfferValidators.OfferCreateSchema`, `OfferValidators.OfferGetSchema` and `OfferValidators.OfferUpdateSchema`.

**External functions.** Several functions the backend calls are left uninterpreted, as fields of `Common.Env`:

- SHA-256;
- Joi's e-mail syntax check;
- JavaScript's number-to-text conversion;
- JavaScript's text-to-number conversion.

No property is assumed about them; in particular the hash is not assumed injective.

**Random values and uploads.** The random `uid2(16)` salt and token are parameters of the signup methods. So is the image service's answer to an upload.

## Behaviours worth knowing

- **Bearer prefix.** Token extraction removes only the *first* `"Bearer "` wherever it occurs. A header without it is used verbatim.
- **No ownership check.** Update and delete accept *any* authenticated user, not only the offer's owner.
- **Truthy-only merge.** The update merge overwrites a field or a slot only with a truthy value. So `""`, `null` and `0` never clear anything, even though the update schema accepts `""` and `null` for attributes. The merge tests truthiness, not key presence.
- **GraphQL pictures are never uploaded.** The GraphQL create and update can never reach their picture upload: the offer schemas refuse the unknown key `picture`.
- **REST listing validates the wrong input.** The REST listing validates the request *body* against the list schema but filters on the *query string*, which nothing validates.
- **Missing REST signup password.** A REST signup without a password stores the hash of the text `"undefined"` followed by the salt. The password `"undefined"` then logs that user in.
- **REST login errors.** REST login answers 400 both for an unknown e-mail ("User unknown") and for a wrong password ("Unauthorized").
- **Failed avatar upload.** A failed avatar upload makes signup fail in both front ends: GraphQL throws "Cloudinary upload failed: …", REST answers 400.
- **Absent attributes.** A created offer's five attribute slots are always present; an attribute the request leaves out is built with `undefined`.
- **REST signup avatar.** The REST signup hands the image service `req.files.picture.epath`, a property that does not exist, so the picture file itself is never sent (routes/users.js:88-92). It then assigns the answer beside the account (`newUser.avatar`), a path the User record does not declare, so no avatar is ever stored.
- **String lengths.** Joi's `max` rules count JavaScript string length, in UTF-16 code units: a character above U+FFFF counts twice (`Common.JsLength`).

## Model

| member | source | states |
|---|---|---|
| Common.Lower | graphql/Resolvers.js:110 | each ASCII capital becomes its small letter and every other character stays, so no capital is left, as the `i` flag compares letters |
| Common.LowerIdempotent | graphql/Resolvers.js:110 | lower-casing twice is lower-casing once |
| Common.JsLength | validators/offers.js:4-5 | the JavaScript length of a string lies between its number of characters and twice that |
| Common.JsLengthBasic | validators/offers.js:4-5 | a string of characters below U+10000 has one code unit per character |
| Common.JsLengthAstral | validators/offers.js:4-5 | a string of characters above U+FFFF has two code units per character |
| UserValidators.SignupRequiresCredentials | validators/users.js:3-6 | an accepted signup has an e-mail that passes the e-mail check, a username and a password, all non-empty strings |
| UserValidators.SignupOptionalFields | validators/users.js:3-9 | phone and avatar may be left out: e-mail, username and password alone are accepted |
| UserValidators.SignupCredentialsPassLogin | validators/users.js:3-14 | the e-mail and password of any accepted signup form an accepted login |
| UserValidators.LoginRequiresBoth | validators/users.js:11-14 | a login lacking a non-empty e-mail or password string is refused |
| UserValidators.AvatarExtensionAnyCase | validators/users.js:8 | any name, a dot and a listed extension written in any letter case is an accepted avatar |
| UserValidators.AvatarRejectsOtherExtension | validators/users.js:8 | the pattern is anchored at the end: "photo.pngx" is refused |
| UserValidators.AvatarRequiresDot | validators/users.js:8 | the dot is required: a bare "png" is refused |
| OfferValidators.CreateBounds | validators/offers.js:3-6 | a created offer's title is a non-empty string of at most 50 UTF-16 code units (so at most 50 characters), its price a number in (0, 100000], its description absent or non-empty and at most 500 code units |
| OfferValidators.AstralTitleRefused | validators/offers.js:4 | a title of 26 characters above U+FFFF, 52 code units long, is refused |
| OfferValidators.BasicTitleAccepted | validators/offers.js:4 | a title of 50 characters below U+10000 is accepted |
| OfferValidators.CreateAttributes | validators/offers.js:7-11 | each attribute of a create request is absent or a non-empty string |
| OfferValidators.CreateAcceptedByUpdate | validators/offers.js:3-31 | every request the create schema accepts is accepted by the update schema |
| OfferValidators.UpdateRequiresAKey | validators/offers.js:22-31 | an update without any key is refused (`.min(1)`) |
| OfferValidators.UpdateAcceptsClearedAttribute | validators/offers.js:7-30 | update accepts `""` and `null` for an attribute; create refuses `""` there |
| OfferValidators.GetBoundsIndependent | validators/offers.js:14-20 | the list schema accepts a minimum price above the maximum |
| OfferValidators.GetSortAndPage | validators/offers.js:14-20 | an accepted sort is one of the two price orders, a page a whole number ≥ 1, a minimum price positive |
| UserModel.FindByEmail | graphql/Resolvers.js:43-46 | the user found has exactly that e-mail; nothing is found iff no stored user has it |
| UserModel.FindByToken | isAuthenticated.js:5-7 | the user found has exactly that token; nothing is found iff no stored user has it |
| UserModel.FindByEmailUnique | models/User.js:4-8 | with unique e-mails, looking a stored user up by e-mail finds that very user |
| UserModel.AppendNewEmail | models/User.js:4-8 | adding a user with a new e-mail keeps e-mails unique, makes that user the one found, and leaves every other lookup unchanged |
| UserModel.AppendValid | models/User.js:3-26 | adding a complete user with a new e-mail and id keeps the user collection invariant |
| Database.SaveUserFailure | models/User.js:3-26 | saving is refused iff a required field is empty or a stored user has the e-mail |
| Database.Store.NewId | graphql/Resolvers.js:75-81 | a fresh id belongs to no stored user or offer; the invariant is kept |
| Database.Store.SaveUser | graphql/Resolvers.js:92 | the user is appended exactly when saving is not refused; the invariant is kept |
| Database.Store.InsertOffer | graphql/Resolvers.js:177 | a well-formed offer with a fresh id and an existing owner is appended; the invariant is kept |
| Database.Store.ReplaceOffer | graphql/Resolvers.js:224 | the offer at one position is replaced by one with the same id and owner; the invariant is kept |
| Database.Store.DeleteOfferAt | graphql/Resolvers.js:253 | exactly the offers with the target's id go, the others stay in order; the invariant is kept |
| OfferModel.CreateDetails | graphql/Resolvers.js:159-165 | five slots keyed brand, size, condition, color, city in that order, each holding the request's value for its key |
| OfferModel.NewOffer | graphql/Resolvers.js:155-167 | a validated create request yields a well-formed offer with the request's title, price, description (absent iff the request has none) and slots, owned by the given user |
| OfferModel.MergedDetails | graphql/Resolvers.js:209-214 | merging keeps the slot keys and their order |
| OfferModel.ApplyUpdate | graphql/Resolvers.js:205-214 | the merge keeps id, owner, image and the number of slots; a truthy title is taken; a falsy price keeps the old one |
| OfferModel.MergeSlotsInPlace | graphql/Resolvers.js:209-214 | the in-place `forEach` leaves the slot array equal to the merge of its old contents |
| OfferModel.MergeUpdate | graphql/Resolvers.js:205-214 | the statement-by-statement update computes exactly the specified partial merge |
| OfferModel.UpdateKeepsIdentity | graphql/Resolvers.js:205-214 | an update never changes the id, owner, image, slot keys or slot order |
| OfferModel.UpdateWritesOnlyTruthy | graphql/Resolvers.js:205-214 | a field or slot takes the request's value iff that value is truthy, and otherwise keeps its own |
| OfferModel.UpdatePreservesWellFormed | routes/offers.js:126-135 | a validated update of a well-formed offer is well-formed |
| OfferModel.UpdateIdempotent | graphql/Resolvers.js:205-214 | applying the same update twice equals applying it once |
| OfferModel.FalsyUpdateChangesNothing | graphql/Resolvers.js:205-214 | an update whose values are all falsy leaves the offer unchanged |
| OfferModel.PriceOnlyUpdate | routes/offers.js:126-135 | an update giving only a valid price is accepted and changes the price and nothing else |
| OfferModel.CreateWithoutAttributes | routes/offers.js:23-33 | `{title: "Shirt", price: 20}` is accepted and gets five slots holding undefined |
| OfferModel.IndexOfOffer | graphql/Resolvers.js:199-202 | the position found holds an offer with that id; nothing is found iff no stored offer has it |
| OfferModel.FindById | routes/offers.js:124-125 | a well-formed id finds an offer with that id iff one is stored; the callers refuse a missing or malformed id before the lookup, and None for those is a convention of the model |
| OfferModel.RemoveAtRemovesOnlyTarget | graphql/Resolvers.js:253 | removing one position shortens the list by one, keeps ids unique, and removes exactly the offers with the target id |
| OfferModel.ReplaceValid | graphql/Resolvers.js:224 | replacing an offer by a well-formed one with the same id and owner keeps the offer invariant |
| OfferModel.AppendOfferValid | graphql/Resolvers.js:177 | appending a well-formed offer with a fresh id and an existing owner keeps the offer invariant |
| OfferQuery.Select | graphql/Resolvers.js:110-112 | an offer is selected iff it is stored and passes every given filter, and each match as often as it is stored |
| OfferQuery.Insert | graphql/Resolvers.js:114-115 | inserting into a price-sorted list keeps it sorted and adds exactly that offer |
| OfferQuery.SortByPrice | graphql/Resolvers.js:114-115 | the result is sorted by price in the requested direction and is a permutation of the input |
| OfferQuery.Arrange | graphql/Resolvers.js:114-115 | the arranged list is a permutation of its input, sorted by price in the requested direction, unchanged when no sort applies |
| OfferQuery.Page | graphql/Resolvers.js:117 | at most 5 offers, the ones at positions `skip` to `skip + 4`, fewer only at the end |
| OfferQuery.RunQuery | graphql/Resolvers.js:108-119 | every returned offer is stored and matches, there are at most 5, and a requested price order holds |
| OfferQuery.ArrangedIsPermutationOfMatches | graphql/Resolvers.js:110-115 | before paging, each offer occurs as often as it is stored when it matches and not at all otherwise |
| OfferQuery.SelectAll | routes/offers.js:60-68 | with no filter every stored offer is selected, in store order |
| OfferQuery.InclusiveBounds | graphql/Resolvers.js:111-112 | an offer priced exactly at the minimum and the maximum passes both bounds |
| OfferQuery.CrossedBoundsMatchNothing | graphql/Resolvers.js:111-112 | a minimum above the maximum selects nothing |
| OfferQuery.ContainsAnywhere | graphql/Resolvers.js:110 | the title search finds the text anywhere in the title, ignoring letter case |
| OfferQuery.PagesDisjoint | graphql/Resolvers.js:117 | without duplicates, two different pages share no offer |
| OfferQuery.OnItsPage | graphql/Resolvers.js:117 | the offer at position k is on page k / 5 + 1 |
| OfferQuery.ArrangedHasNoDuplicates | graphql/Resolvers.js:108-115 | over offers with unique ids, the arranged matches contain no offer twice |
| OfferQuery.SelectKeepsNoDuplicates | graphql/Resolvers.js:110-112 | filtering a list without duplicates gives one without duplicates |
| Authentication.FindFrom | isAuthenticated.js:6 | the position found is the first occurrence at or after the start; none iff there is none |
| Authentication.RemoveFirst | isAuthenticated.js:6 | with no occurrence the text is unchanged; otherwise exactly the first occurrence is cut out |
| Authentication.TokenOwner | isAuthenticated.js:4-9 | a user is found only for a present, non-empty header, and holds exactly the extracted token; none iff no user holds it |
| Authentication.BearerPrefixStripped | isAuthenticated.js:6 | "Bearer " followed by a token yields that token |
| Authentication.OnlyFirstPrefixRemoved | isAuthenticated.js:6 | a doubled prefix leaves one "Bearer " in the token |
| Authentication.BareTokenVerbatim | isAuthenticated.js:6 | a header without "Bearer " is used verbatim |
| Authentication.InnerPrefixRemoved | isAuthenticated.js:6 | the prefix is removed where it first occurs, also inside the header |
| Authentication.StoredTokenAuthenticates | isAuthenticated.js:4-14 | a header carrying a stored token finds a user holding that token |
| Authentication.IsAuthenticated | isAuthenticated.js:3-19 | hands on iff the header designates a user, who is then attached to the request; otherwise 401 "Unauthorized" with the request untouched |
| GraphqlResolvers.Authenticate | graphql/Resolvers.js:17-32 | "No token provided" for a missing header, "Invalid token" when no user holds the token, else that user |
| GraphqlResolvers.Login | graphql/Resolvers.js:36-57 | schema errors first; "User not found." iff no user has the e-mail; success only with a user whose hash the password and salt reproduce, returning that user's account alone |
| GraphqlResolvers.LoginWithStoredPassword | graphql/Resolvers.js:43-53 | with unique e-mails, the right password returns the stored user's account |
| GraphqlResolvers.LoginWithWrongPassword | graphql/Resolvers.js:48-51 | with unique e-mails, a password not reproducing the hash gives "Unauthorized: invalid password." |
| GraphqlResolvers.LoginAfterSignup | graphql/Resolvers.js:36-98 | the credentials an accepted signup stored log that user in |
| GraphqlResolvers.Signup | graphql/Resolvers.js:59-98 | schema error, duplicate e-mail, failed upload each leave the store unchanged; on success exactly one user is added with that e-mail, `{username, phone}`, hash H(password + salt), the drawn salt and token, and login with the same credentials succeeds |
| GraphqlResolvers.FilterOf | graphql/Resolvers.js:110-112 | a title filter is set exactly for a non-empty title text and a price bound exactly for a non-zero number, each holding that argument; a falsy argument sets none |
| GraphqlResolvers.OrderOf | graphql/Resolvers.js:114-115 | the order is by price iff the sort is one of the two listed texts, ascending iff it is "price-asc" |
| GraphqlResolvers.DefaultPage | graphql/Resolvers.js:101 | the page is never undefined, and a given page is kept |
| GraphqlResolvers.Offers | graphql/Resolvers.js:101-123 | refused iff the arguments, page defaulted to 1, fail the list schema; otherwise at most 5 stored, matching offers, price-ordered when asked |
| GraphqlResolvers.DefaultPageIsFirst | graphql/Resolvers.js:101 | leaving the page out is the same as asking for page 1 |
| GraphqlResolvers.OfferPagesDisjoint | graphql/Resolvers.js:101-123 | over offers with unique ids, two different pages of a listing share no offer |
| GraphqlResolvers.OffersSkipsEarlierPages | graphql/Resolvers.js:117 | page n holds the arranged matches from position 5·(n−1) on, at most 5, fewer only at the end |
| GraphqlResolvers.OfferById | graphql/Resolvers.js:125-140 | "Missing offer ID" for a falsy id, a cast error for a malformed one, else the stored offer with that id or "Offer not found" |
| GraphqlResolvers.PictureNeverUploaded | graphql/Resolvers.js:149-222 | a request the create or update schema accepts has no truthy `picture` |
| GraphqlResolvers.CreateOffer | graphql/Resolvers.js:143-182 | authentication error, then schema error, each with the store unchanged; else exactly one new offer, built from the request and owned by the authenticated user, is appended |
| GraphqlResolvers.UpdateOffer | graphql/Resolvers.js:184-229 | authenticates, then checks the id, then validates, then looks up, each failure leaving the store unchanged; on success the stored offer becomes its merge with the request and nothing else changes |
| GraphqlResolvers.DeleteOffer | graphql/Resolvers.js:231-258 | the same checks in order; on success the offer with that id is gone, the others stay, and "Offer deleted successfully" is returned |
| RestUsers.Login | routes/users.js:16-47 | 400 "Invalid request" for a falsy e-mail or password, 400 "User unknown" iff no user has the e-mail, 400 "Unauthorized" iff the found user's hash does not match; 200 with only id, token, username and phone of a user whose hash matches |
| RestUsers.LoginWithStoredPassword | routes/users.js:24-43 | with unique e-mails, a stored user's e-mail and a matching password give 200 with that user's session |
| RestUsers.LoginWithWrongPassword | routes/users.js:30-34 | with unique e-mails, a stored user's e-mail and a password not reproducing the hash give 400 "Unauthorized" |
| RestUsers.NewUser | routes/users.js:69-85 | the new user has the drawn id, salt and token, no avatar, the given e-mail and username, and the hash of the password text followed by the salt (of "undefined" when no password is given) |
| RestUsers.Signup | routes/users.js:49-112 | 400 without a username, 409 for a taken e-mail only when one is given, 400 for a failed upload or a refused save, each storing nothing; on 200 exactly one user is added and the same e-mail and password then log in |
| RestUsers.MissingPasswordIsUndefined | routes/users.js:69-85 | a signup without a password lets the password "undefined" log in |
| RestOffers.Publish | routes/offers.js:17-50 | 401, then 400 for schema errors, then 400 for a failed upload, each with the store unchanged; on 200 one offer built from the fields and owned by the request's user is appended |
| RestOffers.QueryBound | routes/offers.js:63-65 | a falsy query-string bound sets no bound; a set bound is the number its text reads as; text that is no number is marked unparsable |
| RestOffers.QueryFilter | routes/offers.js:63-65 | a title filter iff the title parameter is truthy, holding that text; a price filter iff its bound reads as a number, holding it |
| RestOffers.QueryOrder | routes/offers.js:67-68 | the order is by price iff the sort parameter is one of the two listed texts, ascending iff it is "price-asc" |
| RestOffers.QuerySkip | routes/offers.js:60-70 | an absent page skips nothing, a page that reads as no number is refused, and an accepted skip equals 5·(page − 1) |
| RestOffers.QuerySkipOfPage | routes/offers.js:60-70 | a page reading as n ≥ 1 skips 5·(n−1) offers |
| RestOffers.QuerySkipAcceptance | routes/offers.js:70 | the page is accepted exactly when it is ≥ 1 and five times it is whole |
| RestOffers.ListOffers | routes/offers.js:53-77 | 400 for a body the list schema refuses, a bound that is not a number or a refused page; otherwise 200 with exactly the page of the arranged matches at the query's skip: at most 5 stored offers matching the query string's filters, price-ordered when asked |
| RestOffers.ListOffersSkipsEarlierPages | routes/offers.js:60-70 | a page reading as n ≥ 1 holds the arranged matches from position 5·(n−1) on, at most 5, fewer only at the end |
| RestOffers.QueryNotValidated | routes/offers.js:54-60 | an unknown sort in the query string is ignored: 200 with the first five stored offers |
| RestOffers.FieldsValidatedInstead | routes/offers.js:54-57 | an unknown sort in the body is refused with 400 whatever the query string holds |
| RestOffers.GetOffer | routes/offers.js:80-93 | 400 for a missing or malformed id, 404 iff no offer has a well-formed id, else 200 with that offer |
| RestOffers.DeleteOffer | routes/offers.js:96-114 | 401, 400 or 404 with the store unchanged; on 200 exactly the offer with that id is gone |
| RestOffers.UpdateOffer | routes/offers.js:117-150 | 401, then 400 schema, then 400 cast, 404 or 400 upload failure, each with the store unchanged; on 200 the stored offer becomes its merge with the fields, with the new image if one was uploaded |
| FrontEnds.SameAuthentication | isAuthenticated.js:4-14 | the middleware and the resolvers' `authenticate` accept the same headers and find the same user |
| FrontEnds.SameOfferLookup | routes/offers.js:80-93 | for a well-formed id, the route answers 200 with exactly the offer the resolver returns |
| FrontEnds.SameListing | routes/offers.js:53-77 | a title and page in the query string give the same offers as the resolver given the same title and page |

## Left out

- **Image service.** Uploads to and deletions from the image service are not modelled; an upload is a parameter holding its outcome.
  - The deletion of an offer's image before the offer is deleted is left out.
  - The GraphQL create and update picture branch is omitted, because `GraphqlResolvers.PictureNeverUploaded` shows it cannot run.
- **Joi's type conversion.** A number rule accepts only a number value. So a REST request whose price arrives as the text "20" is refused by the model, while Joi would convert it and accept it. Joi's error message texts are abstracted to `SchemaViolation`.
- **Database error texts.** Mongoose's error objects are abstracted to `DocumentInvalid`, `DuplicateKey` and `CastFailure`, without their message texts.
  - A malformed offer id is one the database cannot cast.
- RestOffers.QuerySkip: as a simplification, the model treats a negative or fractional skip as a refused query (`QueryRejected`, answered with 400). How the database actually treats such a skip (it may truncate it) is not modelled.
- **Title search.** It is a literal, ASCII case-insensitive substring test. Regular-expression meta-characters, and the error an invalid pattern raises, are not modelled.
- **Stored offer documents.** OfferModel.NewOffer and OfferModel.MergeSlotsInPlace assume every attribute slot keeps its key once the offer is saved, even when the slot was built with `undefined`, and that an in-place write to a slot (`detail[key] = …`) is saved. How the document store drops undefined values or detects changes inside an untyped array is not modelled.
- RestUsers.Signup: the image service's answer to the upload of the undefined `epath` property is a parameter; the model does not decide whether the service accepts or refuses that call. Its answer is never stored.
- **Owner population.** `populate("owner")` is not modelled: an offer holds its owner's id, and responses carry the offer record as stored.
- **Store order.** The store's natural order is taken to be insertion order. Price sorting is modelled as an insertion sort, and its order among equal prices is not a promise of the source.
- **GraphQL schema.** graphql/Schema.js, the server bootstrap, the payment route and the Transaction record are not part of this model. That includes the GraphQL type projection of returned values.
  - graphql/Schema.js declares `createOffer` and `updateOffer` with flat arguments (`title`, `description`, `price`, …), while the resolvers read one `offer` argument, which as wired is undefined. The model calls the resolvers with an `offer` object, as their own code expects.
  - index.js mounts no GraphQL endpoint; the resolvers are modelled as if they were served.
- **Malformed REST inputs.** A missing `req.files` object, query parameters given as arrays, and NaN as a truthiness case are not modelled.
- **Duplicate REST responses.** After answering 400 for a missing id, the REST get and delete routes go on and try to answer again. The model returns the first answer; in that case the store is unchanged.
- **Console logging.** The REST user routes log the request fields, including the plaintext password (routes/users.js:17 and :50), and the password with the salt and then the hash (routes/users.js:70 and :72). This logging is not modelled.
- **Offer saves.** Saving an offer is assumed to succeed: Database.Store.InsertOffer and Database.Store.ReplaceOffer cannot fail, so the 400 answers and rethrows around those saves (routes/offers.js:45-47 and :145-147, graphql/Resolvers.js:177-179 and :224-226) are never reached in the model. The Offer record's declaration is not part of this model.
- **Concurrency.** The race between the e-mail check and the insert, and concurrency in general, are not modelled. The unique index is modelled as the save refusing a duplicate e-mail.
- **Numbers.** JavaScript numbers are modelled as exact reals; floating point is not modelled.
- **Ids.** Ids are drawn from a counter, and one is consumed even when the operation later fails.

=== FILE: authentication.dfy ===
/**
 * Token authentication (isAuthenticated.js): the bearer prefix is removed from
 * the `Authorization` header and the user holding the rest as token is looked
 * up. The REST middleware attaches that user to the request or answers 401.
 */
module Authentication {
  import opened Common
  import opened UserModel
  import opened Http

  const BEARER: string := "Bearer "

  predicate OccursAt(s: string, pat: string, i: nat) {
    i + |pat| <= |s| && s[i..i + |pat|] == pat
  }

  /** The first position at or after `k` where `pat` occurs in `s`. */
  function FindFrom(s: string, pat: string, k: nat): (r: Option<nat>)
    requires k <= |s|
    ensures r.Some? ==> k <= r.value && OccursAt(s, pat, r.value)
    ensures r.Some? ==> forall i: nat :: k <= i < r.value ==> !OccursAt(s, pat, i)
    ensures r.None? <==> forall i: nat :: k <= i ==> !OccursAt(s, pat, i)
    decreases |s| - k
  {
    if OccursAt(s, pat, k) then Some(k)
    else if k + |pat| >= |s| then None
    else FindFrom(s, pat, k + 1)
  }

  /** `s.replace(pat, "")` with a string pattern: only the first occurrence is removed. */
  function RemoveFirst(s: string, pat: string): (r: string)
    ensures (forall i: nat :: !OccursAt(s, pat, i)) ==> r == s
    ensures forall i: nat :: OccursAt(s, pat, i) && (forall j: nat :: j < i ==> !OccursAt(s, pat, j)) ==>
      r == s[..i] + s[i + |pat|..]
  {
    match FindFrom(s, pat, 0)
    case None => s
    case Some(i) => s[..i] + s[i + |pat|..]
  }

  /** The token a header carries: the header with its first "Bearer " removed. */
  function ExtractToken(header: string): string {
    RemoveFirst(header, BEARER)
  }

  /** A header is usable when it is present and not the empty string. */
  predicate HeaderPresent(header: Option<string>) {
    header.Some? && header.value != ""
  }

  /** The user a request's header designates: the first user whose token is the extracted one. */
  function TokenOwner(users: seq<User>, header: Option<string>): (r: Option<User>)
    ensures r.Some? ==> HeaderPresent(header) && r.value in users && r.value.token == ExtractToken(header.value)
    ensures r.None? <==> !HeaderPresent(header) || forall u :: u in users ==> u.token != ExtractToken(header.value)
  {
    if !HeaderPresent(header) then None else FindByToken(users, ExtractToken(header.value))
  }

  /** "Bearer " followed by a token yields exactly that token. */
  lemma BearerPrefixStripped(t: string)
    ensures ExtractToken(BEARER + t) == t
  {
    var h := BEARER + t;
    assert OccursAt(h, BEARER, 0);
    assert h[|BEARER|..] == t;
  }

  /** Only the first "Bearer " goes: a doubled prefix leaves one in the token. */
  lemma OnlyFirstPrefixRemoved(t: string)
    ensures ExtractToken(BEARER + BEARER + t) == BEARER + t
  {
    assert BEARER + BEARER + t == BEARER + (BEARER + t);
    BearerPrefixStripped(BEARER + t);
  }

  /** A header without "Bearer " anywhere is taken as the token itself. */
  lemma BareTokenVerbatim(header: string)
    requires forall i: nat :: !OccursAt(header, BEARER, i)
    ensures ExtractToken(header) == header
  {
  }

  /** The prefix is removed wherever it first occurs, not only at the start. */
  lemma InnerPrefixRemoved()
    ensures ExtractToken("x" + BEARER + "abc") == "xabc"
  {
    var h := "x" + BEARER + "abc";
    assert OccursAt(h, BEARER, 1);
    assert !OccursAt(h, BEARER, 0) by {
      assert h[0] == 'x';
    }
  }

  /** A request bearing a stored user's token is authenticated as a user holding that token. */
  lemma {:induction false} StoredTokenAuthenticates(users: seq<User>, u: User)
    requires u in users
    ensures TokenOwner(users, Some(BEARER + u.token)).Some?
    ensures TokenOwner(users, Some(BEARER + u.token)).value.token == u.token
  {
    BearerPrefixStripped(u.token);
  }

  /** An incoming request: its `Authorization` header, and the user the middleware attaches to it. */
  class Request {
    const authorization: Option<string>
    var user: Option<User>

    constructor (authorization: Option<string>)
      ensures this.authorization == authorization && user == None
    {
      this.authorization := authorization;
      user := None;
    }
  }

  /** What a middleware does with a request: hand it on, or answer it. */
  datatype Step = Next | Halt(response: Response)

  /** `isAuthenticated`: attach the token's owner to the request, or answer 401. */
  method IsAuthenticated(users: seq<User>, req: Request) returns (step: Step)
    modifies req
    ensures step.Next? <==> TokenOwner(users, req.authorization).Some?
    ensures step.Next? ==> req.user == TokenOwner(users, req.authorization)
    ensures step.Halt? ==> step.response == Response(401, ErrorText("Unauthorized")) && req.user == old(req.user)
  {
    if !HeaderPresent(req.authorization) {
      return Halt(Response(401, ErrorText("Unauthorized")));
    }
    var user := FindByToken(users, ExtractToken(req.authorization.value));
    if user.None? {
      return Halt(Response(401, ErrorText("Unauthorized")));
    }
    req.user := user;
    return Next;
  }
}

=== FILE: common.dfy ===
/**
 * Values shared by every part of the marketplace backend model: the loosely
 * typed request values the handlers receive, JavaScript truthiness, the
 * external functions the backend calls (hashing, e-mail syntax, number
 * conversions) and the failure reasons both front ends report.
 */
module Common {

  datatype Option<+T> = None | Some(value: T)

  /** A JavaScript value as it reaches a handler: a GraphQL argument or a request field. */
  datatype Value = Undefined | Null | Bool(b: bool) | Num(n: real) | Str(s: string)

  /** JavaScript truthiness (`if (v)`), NaN aside. */
  predicate Truthy(v: Value) {
    match v
    case Undefined => false
    case Null => false
    case Bool(b) => b
    case Num(n) => n != 0.0
    case Str(s) => s != ""
  }

  /** An object of request fields; a missing key reads as `undefined`. */
  type Fields = map<string, Value>

  function Get(f: Fields, key: string): Value {
    if key in f then f[key] else Undefined
  }

  /** ASCII lower-casing, as a case-insensitive comparison applies to letters A-Z. */
  function LowerChar(c: char): char {
    if 'A' <= c <= 'Z' then (c as int + 32) as char else c
  }

  /** Lower-cases the ASCII letters of `s`: each capital becomes its small letter, every other character stays. */
  function Lower(s: string): (r: string)
    ensures |r| == |s|
    ensures forall i :: 0 <= i < |r| ==> !('A' <= r[i] <= 'Z')
    ensures forall i :: 0 <= i < |s| && 'A' <= s[i] <= 'Z' ==> r[i] as int == s[i] as int + 32
    ensures forall i :: 0 <= i < |s| && !('A' <= s[i] <= 'Z') ==> r[i] == s[i]
  {
    seq(|s|, i requires 0 <= i < |s| => LowerChar(s[i]))
  }

  /** Lower-casing twice is lower-casing once. */
  lemma LowerIdempotent(s: string)
    ensures Lower(Lower(s)) == Lower(s)
  {
  }

  lemma LowerConcat(a: string, b: string)
    ensures Lower(a + b) == Lower(a) + Lower(b)
  {
  }

  /**
   * JavaScript's `length` of a string: the number of UTF-16 code units, so a
   * character above U+FFFF counts twice. Joi's `max` rule compares this length.
   */
  function JsLength(s: string): (n: nat)
    ensures |s| <= n <= 2 * |s|
  {
    if s == [] then 0 else (if s[0] as int >= 0x1_0000 then 2 else 1) + JsLength(s[1..])
  }

  /** A string of characters in the basic multilingual plane has one code unit per character. */
  lemma {:induction false} JsLengthBasic(s: string)
    requires forall i :: 0 <= i < |s| ==> s[i] as int < 0x1_0000
    ensures JsLength(s) == |s|
  {
    if s != [] {
      JsLengthBasic(s[1..]);
    }
  }

  /** A string of characters above U+FFFF has two code units per character. */
  lemma {:induction false} JsLengthAstral(s: string)
    requires forall i :: 0 <= i < |s| ==> s[i] as int >= 0x1_0000
    ensures JsLength(s) == 2 * |s|
  {
    if s != [] {
      JsLengthAstral(s[1..]);
    }
  }

  /** The handle the image service returns for an upload: `{public_id, url}`. */
  datatype ImageRef = ImageRef(publicId: string, url: string)

  /** What one call to the image service's upload produced. */
  datatype Upload = Uploaded(image: ImageRef) | UploadFailed(reason: string)

  /**
   * The external functions the backend relies on, left uninterpreted:
   * `sha256` is the hex digest of SHA256, `isEmail` is Joi's e-mail syntax rule,
   * `numberText` is JavaScript's Number-to-String conversion and `parseNumber`
   * is JavaScript's `Number(string)` (None standing for NaN).
   */
  datatype Env = Env(
    sha256: string -> string,
    isEmail: string -> bool,
    numberText: real -> string,
    parseNumber: string -> Option<real>)

  /** `String(v)` as Mongoose casts a value into a String path; null and undefined stay unset. */
  function CastString(env: Env, v: Value): (r: Option<string>)
    ensures r.None? <==> v.Undefined? || v.Null?
    ensures v.Str? ==> r == Some(v.s)
  {
    match v
    case Undefined => None
    case Null => None
    case Bool(b) => Some(if b then "true" else "false")
    case Num(n) => Some(env.numberText(n))
    case Str(s) => Some(s)
  }

  /** The JavaScript expression `v + suffix` where `suffix` is a string. */
  function JsConcat(env: Env, v: Value, suffix: string): (r: string)
    ensures v.Str? ==> r == v.s + suffix
    ensures v.Undefined? ==> r == "undefined" + suffix
  {
    match v
    case Undefined => "undefined" + suffix
    case Null => "null" + suffix
    case Bool(b) => (if b then "true" else "false") + suffix
    case Num(n) => env.numberText(n) + suffix
    case Str(s) => s + suffix
  }

  /** Why an operation failed; both front ends report these. */
  datatype Failure =
    | SchemaViolation        // the first detail of a Joi validation error
    | DocumentInvalid        // Mongoose's "validation failed" on save (a required path is unset)
    | DuplicateKey           // the store's unique index on the user e-mail refused the insert
    | CastFailure            // Mongoose could not cast a malformed id or filter value
    | QueryRejected          // the database refused the query (a negative or fractional skip)
    | Message(text: string)  // an Error thrown by the handler with this text

  /** An offer id as a request gives it: missing (falsy), not a well-formed id, or a document id. */
  datatype IdArg = NoId | MalformedId | DocId(id: nat)

  /** A GraphQL resolver's outcome: its data, or the error it throws. */
  datatype Result<+T> = Ok(value: T) | Error(failure: Failure)

  /** The index of the first element satisfying `p`, as `findOne` returns the first match. */
  function FindFirst<T>(s: seq<T>, p: T -> bool): (r: Option<nat>)
    ensures r.Some? ==> r.value < |s| && p(s[r.value])
    ensures r.Some? ==> forall j :: 0 <= j < r.value ==> !p(s[j])
    ensures r.None? <==> forall j :: 0 <= j < |s| ==> !p(s[j])
  {
    if |s| == 0 then None
    else if p(s[0]) then Some(0)
    else match FindFirst(s[1..], p)
      case None => None
      case Some(i) => Some(i + 1)
  }

  /** Appending an element that fails the test leaves the first match where it was. */
  lemma {:induction false} FindFirstAppend<T>(s: seq<T>, x: T, p: T -> bool)
    requires !p(x)
    ensures FindFirst(s + [x], p) == FindFirst(s, p)
  {
    if |s| > 0 {
      assert (s + [x])[1..] == s[1..] + [x];
      FindFirstAppend(s[1..], x, p);
    }
  }

  /** No element occurs twice. */
  predicate NoDuplicates<T(==)>(s: seq<T>) {
    forall i, j :: 0 <= i < j < |s| ==> s[i] != s[j]
  }

  lemma {:induction false} CountAtMostOne<T>(s: seq<T>, x: T)
    requires NoDuplicates(s)
    ensures multiset(s)[x] <= 1
  {
    if s != [] {
      assert s == [s[0]] + s[1..];
      CountAtMostOne(s[1..], x);
      if s[0] == x {
        assert x !in s[1..];
      }
    }
  }

  lemma TwoIndicesCountTwo<T>(s: seq<T>, i: nat, j: nat)
    requires i < j < |s| && s[i] == s[j]
    ensures multiset(s)[s[i]] >= 2
  {
    assert s == s[..i] + [s[i]] + s[i + 1..j] + [s[j]] + s[j + 1..];
  }

  /** A permutation of a sequence without duplicates has none either. */
  lemma NoDuplicatesPermutation<T>(s: seq<T>, t: seq<T>)
    requires multiset(s) == multiset(t) && NoDuplicates(t)
    ensures NoDuplicates(s)
  {
    forall i, j | 0 <= i < j < |s|
      ensures s[i] != s[j]
    {
      if s[i] == s[j] {
        TwoIndicesCountTwo(s, i, j);
        CountAtMostOne(t, s[i]);
      }
    }
  }
}

=== FILE: database.dfy ===
/**
 * The document store the handlers share: the user collection and the offer
 * collection, in their natural (insertion) order, and the source of fresh
 * document ids. Its invariant is the one the User record declares (required
 * fields, unique e-mail) together with the offer invariant the schemas keep.
 */
module Database {
  import opened Common
  import opened UserModel
  import opened OfferModel

  /** Why `newUser.save()` refuses a user: a required path is unset, or the unique e-mail index is hit. */
  function SaveUserFailure(users: seq<User>, u: User): (r: Option<Failure>)
    ensures r.None? <==> RequiredFieldsPresent(u) && forall v :: v in users ==> v.email != u.email
  {
    if !RequiredFieldsPresent(u) then Some(DocumentInvalid)
    else if FindByEmail(users, u.email).Some? then Some(DuplicateKey)
    else None
  }

  class Store {
    var users: seq<User>
    var offers: seq<Offer>
    var nextId: nat

    ghost predicate Valid()
      reads this
    {
      ValidUsers(users, nextId) && ValidOffers(offers, UserIds(users), nextId)
    }

    constructor ()
      ensures Valid() && users == [] && offers == []
    {
      users, offers, nextId := [], [], 0;
    }

    /** A fresh `_id`, as Mongoose gives one to every document it builds. */
    method NewId() returns (id: nat)
      requires Valid()
      modifies this`nextId
      ensures Valid() && id == old(nextId) && nextId == id + 1
      ensures id !in UserIds(users) && forall o :: o in offers ==> o.id != id
    {
      id := nextId;
      nextId := nextId + 1;
    }

    /** `newUser.save()`. */
    method SaveUser(u: User) returns (failure: Option<Failure>)
      requires Valid() && u.id < nextId && u.id !in UserIds(users)
      modifies this`users
      ensures Valid() && failure == SaveUserFailure(old(users), u)
      ensures users == if failure.None? then old(users) + [u] else old(users)
    {
      failure := SaveUserFailure(users, u);
      if failure.None? {
        AppendValid(users, nextId, u, nextId);
        users := users + [u];
      }
    }

    /** `newOffer.save()` for an offer not yet stored. */
    method InsertOffer(o: Offer)
      requires Valid() && WellFormedOffer(o) && o.owner in UserIds(users)
      requires o.id < nextId && forall x :: x in offers ==> x.id != o.id
      modifies this`offers
      ensures Valid() && offers == old(offers) + [o]
    {
      AppendOfferValid(offers, UserIds(users), nextId, o);
      offers := offers + [o];
    }

    /** `existingOffer.save()` for the offer stored at position `k`. */
    method ReplaceOffer(k: nat, o: Offer)
      requires Valid() && k < |offers| && WellFormedOffer(o)
      requires o.id == offers[k].id && o.owner == offers[k].owner
      modifies this`offers
      ensures Valid() && offers == old(offers)[k := o]
    {
      ReplaceValid(offers, UserIds(users), nextId, k, o);
      offers := offers[k := o];
    }

    /** `Offer.findByIdAndDelete(id)` for the offer stored at position `k`. */
    method DeleteOfferAt(k: nat)
      requires Valid() && k < |offers|
      modifies this`offers
      ensures Valid() && offers == old(offers)[..k] + old(offers)[k + 1..]
      ensures forall o :: o in offers <==> o in old(offers) && o.id != old(offers)[k].id
    {
      RemoveAtRemovesOnlyTarget(offers, k);
      offers := offers[..k] + offers[k + 1..];
    }
  }
}

=== FILE: front_ends.dfy ===
/**
 * The REST routes and the GraphQL resolvers serve the same store: these
 * lemmas relate the two front ends' answers to the same request.
 */
module FrontEnds {
  import opened Common
  import opened UserModel
  import opened OfferModel
  import opened OfferQuery
  import opened Http
  import opened Authentication
  import GraphqlResolvers
  import RestOffers

  /** The middleware and `authenticate` accept the same headers and find the same user. */
  lemma SameAuthentication(users: seq<User>, header: Option<string>)
    ensures GraphqlResolvers.Authenticate(users, header).Ok? <==> TokenOwner(users, header).Some?
    ensures GraphqlResolvers.Authenticate(users, header).Ok? ==>
      TokenOwner(users, header) == Some(GraphqlResolvers.Authenticate(users, header).value)
  {
  }

  /** For a well-formed id, the route answers 200 with exactly the offer the resolver returns. */
  lemma SameOfferLookup(offers: seq<Offer>, id: nat, o: Offer)
    ensures RestOffers.GetOffer(offers, DocId(id)) == Response(200, OfferJson(o)) <==>
      GraphqlResolvers.OfferById(offers, DocId(id)) == Ok(o)
  {
  }

  /** A title search and a page asked in the query string give the page the resolver gives for the same arguments. */
  lemma {:induction false} SameListing(env: Env, offers: seq<Offer>, t: string, pageText: string, n: nat)
    requires t != "" && JsLength(t) <= 50 && n >= 1 && env.parseNumber(pageText) == Some(n as real)
    ensures var query := map["title" := t, "page" := pageText];
      var r := GraphqlResolvers.Offers(offers, Str(t), Undefined, Undefined, Undefined, Num(n as real));
      r.Ok? && RestOffers.ListOffers(env, offers, map[], query) == Response(200, OfferListJson(r.value))
  {
    var query := map["title" := t, "page" := pageText];
    RestOffers.QuerySkipOfPage(env, query, n);
    assert RestOffers.QueryFilter(env, query) == GraphqlResolvers.FilterOf(Str(t), Undefined, Undefined);
  }
}

=== FILE: graphql_resolvers.dfy ===
/**
 * The GraphQL resolvers (graphql/Resolvers.js): login, signup, the offer
 * listing and lookup, and the authenticated offer mutations. A resolver either
 * returns its data or throws; a thrown error is the `Error` of a `Result`.
 */
module GraphqlResolvers {
  import opened Common
  import opened Joi
  import opened UserValidators
  import opened OfferValidators
  import opened UserModel
  import opened OfferModel
  import opened OfferQuery
  import opened Database
  import opened Authentication

  /** `authenticate(context)`: the user whose token the header carries. */
  function Authenticate(users: seq<User>, header: Option<string>): (r: Result<User>)
    ensures !HeaderPresent(header) ==> r == Error(Message("Unauthorized: No token provided"))
    ensures HeaderPresent(header) && r.Error? ==> r == Error(Message("Unauthorized: Invalid token"))
    ensures r.Ok? <==> HeaderPresent(header) && exists u :: u in users && u.token == ExtractToken(header.value)
    ensures r.Ok? ==> r.value in users && r.value.token == ExtractToken(header.value)
  {
    if !HeaderPresent(header) then Error(Message("Unauthorized: No token provided"))
    else match FindByToken(users, ExtractToken(header.value))
      case None => Error(Message("Unauthorized: Invalid token"))
      case Some(u) => Ok(u)
  }

  function LoginFields(email: Value, password: Value): Fields {
    map["email" := email, "password" := password]
  }

  /** `login({email, password})`: the account of the user whose stored hash the password reproduces. */
  function Login(env: Env, users: seq<User>, email: Value, password: Value): (r: Result<Account>)
    ensures !LoginSchema(env.isEmail, LoginFields(email, password)) ==> r == Error(SchemaViolation)
    ensures r == Error(Message("User not found.")) <==>
      LoginSchema(env.isEmail, LoginFields(email, password)) && forall u :: u in users ==> Str(u.email) != email
    ensures r.Error? ==> r.failure in {SchemaViolation, Message("User not found."), Message("Unauthorized: invalid password.")}
    ensures r.Ok? ==> exists u :: u in users && Str(u.email) == email && env.sha256(password.s + u.salt) == u.hash && r.value == u.account
  {
    if !LoginSchema(env.isEmail, LoginFields(email, password)) then Error(SchemaViolation)
    else match FindByEmail(users, email.s)
      case None => Error(Message("User not found."))
      case Some(u) =>
        if env.sha256(password.s + u.salt) != u.hash then Error(Message("Unauthorized: invalid password."))
        else Ok(u.account)
  }

  /** With unique e-mails, the right password logs a stored user in and returns that user's account. */
  lemma {:induction false} LoginWithStoredPassword(env: Env, users: seq<User>, u: User, password: string)
    requires UniqueEmails(users) && u in users
    requires LoginSchema(env.isEmail, LoginFields(Str(u.email), Str(password)))
    requires env.sha256(password + u.salt) == u.hash
    ensures Login(env, users, Str(u.email), Str(password)) == Ok(u.account)
  {
    FindByEmailUnique(users, u);
  }

  /** With unique e-mails, a password that does not reproduce a stored user's hash is refused. */
  lemma {:induction false} LoginWithWrongPassword(env: Env, users: seq<User>, u: User, password: string)
    requires UniqueEmails(users) && u in users
    requires LoginSchema(env.isEmail, LoginFields(Str(u.email), Str(password)))
    requires env.sha256(password + u.salt) != u.hash
    ensures Login(env, users, Str(u.email), Str(password)) == Error(Message("Unauthorized: invalid password."))
  {
    FindByEmailUnique(users, u);
  }

  function SignupFields(email: Value, username: Value, password: Value, phone: Value, avatar: Value): Fields {
    map["email" := email, "username" := username, "password" := password, "phone" := phone, "avatar" := avatar]
  }

  /** The round trip: the credentials a signup accepted log the stored user in. */
  lemma {:induction false} LoginAfterSignup(env: Env, users: seq<User>, f: Fields, u: User)
    requires UniqueEmails(users + [u]) && SignupSchema(env.isEmail, f)
    requires Str(u.email) == Get(f, "email") && u.hash == env.sha256(Get(f, "password").s + u.salt)
    ensures Login(env, users + [u], Get(f, "email"), Get(f, "password")) == Ok(u.account)
  {
    SignupCredentialsPassLogin(env.isEmail, f);
    LoginWithStoredPassword(env, users + [u], u, Get(f, "password").s);
  }

  /**
   * `signup({...})`. `salt` and `token` are the two `uid2(16)` draws, `upload`
   * what the image service answers when an avatar is given.
   */
  method Signup(store: Store, env: Env, email: Value, username: Value, password: Value, phone: Value, avatar: Value,
                salt: string, token: string, upload: Upload) returns (r: Result<User>)
    requires store.Valid() && |salt| == 16 && |token| == 16
    modifies store
    ensures store.Valid() && store.offers == old(store.offers)
    ensures var accepted := SignupSchema(env.isEmail, SignupFields(email, username, password, phone, avatar));
      && (!accepted ==> r == Error(SchemaViolation))
      && (accepted && FindByEmail(old(store.users), email.s).Some? ==>
            r == Error(Message("A user is already registered with this email.")))
      && (accepted && FindByEmail(old(store.users), email.s).None? && Truthy(avatar) && upload.UploadFailed? ==>
            r == Error(Message("Cloudinary upload failed: " + upload.reason)))
      && (r.Ok? <==>
            (accepted && FindByEmail(old(store.users), email.s).None? &&
             (Truthy(avatar) ==> upload.Uploaded?) && env.sha256(password.s + salt) != ""))
    ensures r.Ok? ==>
      && store.users == old(store.users) + [r.value]
      && r.value.id !in UserIds(old(store.users))
      && Str(r.value.email) == email
      && r.value.account == Account(Some(username.s), if phone.Str? then Some(phone.s) else None,
                                    if Truthy(avatar) then Some(upload.image) else None)
      && r.value.token == token && r.value.salt == salt && r.value.hash == env.sha256(password.s + salt)
      && Login(env, store.users, email, password) == Ok(r.value.account)
    ensures r.Error? ==> store.users == old(store.users)
  {
    var f := SignupFields(email, username, password, phone, avatar);
    if !SignupSchema(env.isEmail, f) {
      return Error(SchemaViolation);
    }
    SignupRequiresCredentials(env.isEmail, f);
    if FindByEmail(store.users, email.s).Some? {
      return Error(Message("A user is already registered with this email."));
    }
    var hash := env.sha256(password.s + salt);
    var id := store.NewId();
    var image: Option<ImageRef> := None;
    if Truthy(avatar) {
      match upload
      case UploadFailed(reason) =>
        return Error(Message("Cloudinary upload failed: " + reason));
      case Uploaded(img) =>
        image := Some(img);
    }
    var u := User(id, email.s, Account(Some(username.s), if phone.Str? then Some(phone.s) else None, image),
                  token, hash, salt);
    var failure := store.SaveUser(u);
    if failure.Some? {
      return Error(failure.value);
    }
    LoginAfterSignup(env, old(store.users), f, u);
    return Ok(u);
  }

  function OffersFields(title: Value, priceMin: Value, priceMax: Value, sort: Value, page: Value): Fields {
    map["title" := title, "priceMin" := priceMin, "priceMax" := priceMax, "sort" := sort, "page" := page]
  }

  /** The filters a listing applies: those whose argument is truthy. */
  function FilterOf(title: Value, priceMin: Value, priceMax: Value): (r: Filter)
    ensures !Truthy(title) ==> r.title.None?
    ensures !Truthy(priceMin) ==> r.priceMin.None?
    ensures !Truthy(priceMax) ==> r.priceMax.None?
    ensures r.title.Some? ==> Str(r.title.value) == title && r.title.value != ""
    ensures r.priceMin.Some? ==> Num(r.priceMin.value) == priceMin && r.priceMin.value != 0.0
    ensures r.priceMax.Some? ==> Num(r.priceMax.value) == priceMax && r.priceMax.value != 0.0
    ensures title.Str? && title.s != "" ==> r.title == Some(title.s)
    ensures priceMin.Num? && priceMin.n != 0.0 ==> r.priceMin == Some(priceMin.n)
    ensures priceMax.Num? && priceMax.n != 0.0 ==> r.priceMax == Some(priceMax.n)
  {
    Filter(if Truthy(title) && title.Str? then Some(title.s) else None,
           if Truthy(priceMin) && priceMin.Num? then Some(priceMin.n) else None,
           if Truthy(priceMax) && priceMax.Num? then Some(priceMax.n) else None)
  }

  /** Only the two values the list schema names order by price. */
  function OrderOf(sort: Value): (r: Order)
    ensures r != StoreOrder <==> sort.Str? && sort.s in SORT_VALUES
    ensures r == PriceAscending <==> sort == Str("price-asc")
  {
    if sort == Str("price-desc") then PriceDescending
    else if sort == Str("price-asc") then PriceAscending
    else StoreOrder
  }

  /** `page = 1`: the default applies to an absent page only. */
  function DefaultPage(page: Value): (r: Value)
    ensures !r.Undefined?
    ensures !page.Undefined? ==> r == page
  {
    if page.Undefined? then Num(1.0) else page
  }

  /** `offers({...})`: one page of the matching offers, in the requested order. */
  function Offers(offers: seq<Offer>, title: Value, priceMin: Value, priceMax: Value, sort: Value, page: Value)
    : (r: Result<seq<Offer>>)
    ensures r.Error? <==> !OfferGetSchema(OffersFields(title, priceMin, priceMax, sort, DefaultPage(page)))
    ensures r.Error? ==> r.failure == SchemaViolation
    ensures r.Ok? ==> |r.value| <= PAGE_SIZE
    ensures r.Ok? ==> forall o :: o in r.value ==> o in offers && Matches(o, FilterOf(title, priceMin, priceMax))
    ensures r.Ok? && sort == Str("price-asc") ==> SortedByPrice(r.value, true)
    ensures r.Ok? && sort == Str("price-desc") ==> SortedByPrice(r.value, false)
  {
    var p := DefaultPage(page);
    if !OfferGetSchema(OffersFields(title, priceMin, priceMax, sort, p)) then Error(SchemaViolation)
    else
      assert Get(OffersFields(title, priceMin, priceMax, sort, p), "page") == p;
      var skip := SkipFor(p.n.Floor as nat);
      Ok(RunQuery(offers, FilterOf(title, priceMin, priceMax), OrderOf(sort), skip))
  }

  /** Leaving the page out is asking for page 1. */
  lemma DefaultPageIsFirst(offers: seq<Offer>, title: Value, priceMin: Value, priceMax: Value, sort: Value)
    ensures Offers(offers, title, priceMin, priceMax, sort, Undefined) == Offers(offers, title, priceMin, priceMax, sort, Num(1.0))
  {
  }

  /** Over offers with unique ids, two different pages of the same listing share no offer. */
  lemma {:induction false} OfferPagesDisjoint(offers: seq<Offer>, title: Value, priceMin: Value, priceMax: Value, sort: Value,
                                              p: nat, q: nat)
    requires UniqueOfferIds(offers) && p != q
    requires Offers(offers, title, priceMin, priceMax, sort, Num(p as real)).Ok?
    requires Offers(offers, title, priceMin, priceMax, sort, Num(q as real)).Ok?
    ensures var onP := Offers(offers, title, priceMin, priceMax, sort, Num(p as real)).value;
      var onQ := Offers(offers, title, priceMin, priceMax, sort, Num(q as real)).value;
      forall o :: o in onP ==> o !in onQ
  {
    var f, order := FilterOf(title, priceMin, priceMax), OrderOf(sort);
    assert Get(OffersFields(title, priceMin, priceMax, sort, Num(p as real)), "page") == Num(p as real);
    assert Get(OffersFields(title, priceMin, priceMax, sort, Num(q as real)), "page") == Num(q as real);
    ArrangedHasNoDuplicates(offers, f, order);
    PagesDisjoint(Arrange(Select(offers, f), order), p, q);
  }

  /**
   * Page `n` holds the matching offers, arranged, from position `5 * (n - 1)` on:
   * at most 5 of them, and fewer only when the arranged matches run out.
   */
  lemma OffersSkipsEarlierPages(offers: seq<Offer>, title: Value, priceMin: Value, priceMax: Value, sort: Value, n: nat)
    requires Offers(offers, title, priceMin, priceMax, sort, Num(n as real)).Ok?
    ensures n >= 1
    ensures var all := Arrange(Select(offers, FilterOf(title, priceMin, priceMax)), OrderOf(sort));
      var r := Offers(offers, title, priceMin, priceMax, sort, Num(n as real)).value;
      && |r| == (if |all| <= SkipFor(n) then 0 else if |all| - SkipFor(n) < PAGE_SIZE then |all| - SkipFor(n) else PAGE_SIZE)
      && forall i :: 0 <= i < |r| ==> r[i] == all[SkipFor(n) + i]
  {
    var f, order := FilterOf(title, priceMin, priceMax), OrderOf(sort);
    var all := Arrange(Select(offers, f), order);
    assert n >= 1 && Offers(offers, title, priceMin, priceMax, sort, Num(n as real)).value == Page(all, SkipFor(n)) by {
      assert Get(OffersFields(title, priceMin, priceMax, sort, Num(n as real)), "page") == Num(n as real);
      assert (n as real).Floor == n;
      assert RunQuery(offers, f, order, SkipFor(n)) == Page(all, SkipFor(n));
    }
  }

  /** `offer({id})`: the stored offer with this id. */
  function OfferById(offers: seq<Offer>, id: IdArg): (r: Result<Offer>)
    ensures id.NoId? ==> r == Error(Message("Missing offer ID"))
    ensures id.MalformedId? ==> r == Error(CastFailure)
    ensures id.DocId? ==> (r.Ok? <==> exists o :: o in offers && o.id == id.id)
    ensures id.DocId? && r.Error? ==> r == Error(Message("Offer not found"))
    ensures r.Ok? ==> id.DocId? && r.value in offers && r.value.id == id.id
  {
    match id
    case NoId => Error(Message("Missing offer ID"))
    case MalformedId => Error(CastFailure)
    case DocId(n) =>
      match IndexOfOffer(offers, n)
      case None => Error(Message("Offer not found"))
      case Some(k) => Ok(offers[k])
  }

  /** The offer schemas refuse a `picture` key, so the resolvers' picture upload never runs. */
  lemma PictureNeverUploaded(f: Fields)
    requires OfferCreateSchema(f) || OfferUpdateSchema(f)
    ensures !Truthy(Get(f, "picture"))
  {
    assert "picture" !in CREATE_KEYS;
  }

  /** `createOffer({offer}, context)`: a new offer owned by the authenticated user. */
  method CreateOffer(store: Store, header: Option<string>, offer: Fields) returns (r: Result<Offer>)
    requires store.Valid()
    modifies store
    ensures store.Valid() && store.users == old(store.users)
    ensures var auth := Authenticate(old(store.users), header);
      && (auth.Error? ==> r == Error(auth.failure))
      && (auth.Ok? && !OfferCreateSchema(offer) ==> r == Error(SchemaViolation))
      && (r.Ok? <==> auth.Ok? && OfferCreateSchema(offer))
      && (r.Ok? ==> r.value == NewOffer(r.value.id, auth.value.id, offer, None))
    ensures r.Ok? ==> store.offers == old(store.offers) + [r.value] && forall o :: o in old(store.offers) ==> o.id != r.value.id
    ensures r.Error? ==> store.offers == old(store.offers)
  {
    var auth := Authenticate(store.users, header);
    if auth.Error? {
      return Error(auth.failure);
    }
    if !OfferCreateSchema(offer) {
      return Error(SchemaViolation);
    }
    var id := store.NewId();
    var created := NewOffer(id, auth.value.id, offer, None);
    PictureNeverUploaded(offer);
    store.InsertOffer(created);
    return Ok(created);
  }

  /** `updateOffer({id, offer}, context)`: the partial merge, by any authenticated user. */
  method UpdateOffer(store: Store, header: Option<string>, id: IdArg, offer: Fields) returns (r: Result<Offer>)
    requires store.Valid()
    modifies store
    ensures store.Valid() && store.users == old(store.users)
    ensures var auth := Authenticate(old(store.users), header);
      && (auth.Error? ==> r == Error(auth.failure))
      && (auth.Ok? && id.NoId? ==> r == Error(Message("Missing offer ID")))
      && (auth.Ok? && !id.NoId? && !OfferUpdateSchema(offer) ==> r == Error(SchemaViolation))
      && (auth.Ok? && id.MalformedId? && OfferUpdateSchema(offer) ==> r == Error(CastFailure))
      && (auth.Ok? && id.DocId? && OfferUpdateSchema(offer) && IndexOfOffer(old(store.offers), id.id).None? ==>
            r == Error(Message("Offer not found")))
      && (r.Ok? <==> auth.Ok? && id.DocId? && OfferUpdateSchema(offer) && IndexOfOffer(old(store.offers), id.id).Some?)
    ensures r.Ok? ==>
      var k := IndexOfOffer(old(store.offers), id.id).value;
      r.value == ApplyUpdate(old(store.offers)[k], offer) && store.offers == old(store.offers)[k := r.value]
    ensures r.Error? ==> store.offers == old(store.offers)
  {
    var auth := Authenticate(store.users, header);
    if auth.Error? {
      return Error(auth.failure);
    }
    if id.NoId? {
      return Error(Message("Missing offer ID"));
    }
    if !OfferUpdateSchema(offer) {
      return Error(SchemaViolation);
    }
    if id.MalformedId? {
      return Error(CastFailure);
    }
    var found := IndexOfOffer(store.offers, id.id);
    if found.None? {
      return Error(Message("Offer not found"));
    }
    var k := found.value;
    var existing := store.offers[k];
    var updated := MergeUpdate(existing, offer);
    PictureNeverUploaded(offer);
    assert existing in store.offers;
    UpdatePreservesWellFormed(existing, offer);
    store.ReplaceOffer(k, updated);
    return Ok(updated);
  }

  /** `deleteOffer({id}, context)`: removes the offer, by any authenticated user. */
  method DeleteOffer(store: Store, header: Option<string>, id: IdArg) returns (r: Result<string>)
    requires store.Valid()
    modifies store
    ensures store.Valid() && store.users == old(store.users)
    ensures var auth := Authenticate(old(store.users), header);
      && (auth.Error? ==> r == Error(auth.failure))
      && (auth.Ok? && id.NoId? ==> r == Error(Message("Missing offer ID")))
      && (auth.Ok? && id.MalformedId? ==> r == Error(CastFailure))
      && (auth.Ok? && id.DocId? && IndexOfOffer(old(store.offers), id.id).None? ==> r == Error(Message("Offer not found")))
      && (r.Ok? <==> auth.Ok? && id.DocId? && IndexOfOffer(old(store.offers), id.id).Some?)
    ensures r.Ok? ==>
      && r.value == "Offer deleted successfully"
      && |store.offers| == |old(store.offers)| - 1
      && forall o :: o in store.offers <==> o in old(store.offers) && o.id != id.id
    ensures r.Error? ==> store.offers == old(store.offers)
  {
    var auth := Authenticate(store.users, header);
    if auth.Error? {
      return Error(auth.failure);
    }
    if id.NoId? {
      return Error(Message("Missing offer ID"));
    }
    if id.MalformedId? {
      return Error(CastFailure);
    }
    var found := IndexOfOffer(store.offers, id.id);
    if found.None? {
      return Error(Message("Offer not found"));
    }
    RemoveAtRemovesOnlyTarget(store.offers, found.value);
    store.DeleteOfferAt(found.value);
    return Ok("Offer deleted successfully");
  }
}

=== FILE: http.dfy ===
/** What a REST handler sends back: a status code and a JSON body. */
module Http {
  import opened Common
  import opened OfferModel

  datatype Body =
    | ErrorObject(failure: Failure)  // { error: { message } }
    | ErrorText(text: string)        // { error: text }
    | MessageObject(text: string)    // { message: text }
    | OfferJson(offer: Offer)
    | OfferListJson(offers: seq<Offer>)
    | SessionJson(id: nat, token: string, username: Option<string>, phone: Option<string>)

  datatype Response = Response(status: nat, body: Body)
}

=== FILE: joi.dfy ===
/**
 * The Joi rules the request schemas are built from, as predicates over one
 * value or one object of fields. Joi's defaults apply: `Joi.string()` refuses
 * the empty string and null unless they are allowed, an object refuses keys
 * it does not declare. As a modelling convention, a key holding `undefined`
 * counts as absent (Joi itself counts every key of the object); no handler
 * builds such a key.
 */
module Joi {
  import opened Common

  /** `Joi.object({...})`: every key that is present is one the schema declares. */
  predicate OnlyKeys(f: Fields, keys: set<string>) {
    forall k :: k in f && !f[k].Undefined? ==> k in keys
  }

  /** `.min(1)` on an object: at least one key is present. */
  predicate SomeKey(f: Fields) {
    exists k :: k in f && !f[k].Undefined?
  }

  /** `Joi.string()`: a non-empty string. */
  predicate NonEmptyString(v: Value) {
    v.Str? && v.s != ""
  }

  /** `Joi.string().max(max)`, optional; the length is JavaScript's, in UTF-16 code units. */
  predicate OptionalString(v: Value, max: nat) {
    v.Undefined? || (NonEmptyString(v) && JsLength(v.s) <= max)
  }

  /** `Joi.string().max(max).required()`. */
  predicate RequiredString(v: Value, max: nat) {
    NonEmptyString(v) && JsLength(v.s) <= max
  }

  /** `Joi.string()` with no length rule, optional. */
  predicate OptionalAnyString(v: Value) {
    v.Undefined? || NonEmptyString(v)
  }

  /** `Joi.string().allow("", null)`, optional. */
  predicate OptionalClearableString(v: Value) {
    v.Undefined? || v.Null? || v.Str?
  }

  /** `Joi.number().positive()` with an optional `.max(max)`. */
  predicate PositiveNumber(v: Value, max: Option<real>) {
    v.Num? && v.n > 0.0 && (max.Some? ==> v.n <= max.value)
  }

  /** `Joi.number().integer()`. */
  predicate IntegerNumber(v: Value) {
    v.Num? && v.n.Floor as real == v.n
  }

  /** `Joi.string().valid(...)`, optional. */
  predicate OptionalOneOf(v: Value, allowed: set<string>) {
    v.Undefined? || (v.Str? && v.s in allowed)
  }
}

=== FILE: offer_model.dfy ===
/**
 * The Offer record as the handlers build and change it: title, description and
 * price, five detail slots each holding one attribute (brand, size, condition,
 * color, city, in that order), an image handle and the owner's id. The record
 * is built by the create handlers and merged into by the update handlers
 * (graphql/Resolvers.js, routes/offers.js).
 */
module OfferModel {
  import opened Common
  import opened OfferValidators

  /** One slot of `product_details`: an object with exactly one key. */
  datatype Detail = Detail(key: string, value: Value)

  datatype Offer = Offer(
    id: nat,
    name: string,
    description: Option<string>,
    price: real,
    details: seq<Detail>,
    image: Option<ImageRef>,
    owner: nat)

  function SlotKeys(ds: seq<Detail>): seq<string> {
    seq(|ds|, i requires 0 <= i < |ds| => ds[i].key)
  }

  /** What a slot may hold once validated: nothing, or a non-empty string. */
  predicate SlotValue(v: Value) {
    v.Undefined? || (v.Str? && v.s != "")
  }

  /** The record invariant the schemas establish and every update keeps. */
  predicate WellFormedOffer(o: Offer) {
    && o.name != "" && JsLength(o.name) <= TITLE_MAX
    && (o.description.Some? ==> o.description.value != "" && JsLength(o.description.value) <= DESCRIPTION_MAX)
    && 0.0 < o.price <= PRICE_MAX
    && SlotKeys(o.details) == ATTRIBUTE_KEYS
    && forall d :: d in o.details ==> SlotValue(d.value)
  }

  /** The five slots a new offer gets, each holding the request's value for its key (possibly undefined). */
  function CreateDetails(f: Fields): (r: seq<Detail>)
    ensures SlotKeys(r) == ATTRIBUTE_KEYS
    ensures forall i :: 0 <= i < |r| ==> r[i].value == Get(f, ATTRIBUTE_KEYS[i])
  {
    [Detail("brand", Get(f, "brand")),
     Detail("size", Get(f, "size")),
     Detail("condition", Get(f, "condition")),
     Detail("color", Get(f, "color")),
     Detail("city", Get(f, "city"))]
  }

  /** `new Offer({...})` from a validated create request, owned by `owner`. */
  function NewOffer(id: nat, owner: nat, f: Fields, image: Option<ImageRef>): (o: Offer)
    requires OfferCreateSchema(f)
    ensures WellFormedOffer(o)
    ensures o.id == id && o.owner == owner && o.image == image
    ensures Str(o.name) == Get(f, "title") && Num(o.price) == Get(f, "price")
    ensures o.description.None? <==> Get(f, "description").Undefined?
    ensures Get(f, "description").Str? ==> o.description == Some(Get(f, "description").s)
    ensures forall i :: 0 <= i < |ATTRIBUTE_KEYS| ==> o.details[i] == Detail(ATTRIBUTE_KEYS[i], Get(f, ATTRIBUTE_KEYS[i]))
  {
    var description := Get(f, "description");
    var o := Offer(id, Get(f, "title").s,
                   if description.Str? then Some(description.s) else None,
                   Get(f, "price").n, CreateDetails(f), image, owner);
    assert forall d :: d in o.details ==> SlotValue(d.value) by {
      forall d | d in o.details
        ensures SlotValue(d.value)
      {
        var i :| 0 <= i < |o.details| && o.details[i] == d;
        CreateAttributes(f, i);
      }
    }
    o
  }

  /** One step of the update's `forEach`: overwrite the slot only when the request's value for its key is truthy. */
  function MergeSlot(d: Detail, f: Fields): Detail {
    if Truthy(Get(f, d.key)) then Detail(d.key, Get(f, d.key)) else d
  }

  function MergedDetails(ds: seq<Detail>, f: Fields): (r: seq<Detail>)
    ensures SlotKeys(r) == SlotKeys(ds)
  {
    seq(|ds|, i requires 0 <= i < |ds| => MergeSlot(ds[i], f))
  }

  /** The update handlers' partial merge: each scalar and each slot is overwritten only by a truthy value. */
  function ApplyUpdate(o: Offer, f: Fields): (r: Offer)
    requires OfferUpdateSchema(f)
    ensures r.id == o.id && r.owner == o.owner && r.image == o.image && |r.details| == |o.details|
    ensures Truthy(Get(f, "title")) ==> Str(r.name) == Get(f, "title")
    ensures !Truthy(Get(f, "price")) ==> r.price == o.price
  {
    var title, description, price := Get(f, "title"), Get(f, "description"), Get(f, "price");
    o.(name := if Truthy(title) then title.s else o.name,
       description := if Truthy(description) then Some(description.s) else o.description,
       price := if Truthy(price) then price.n else o.price,
       details := MergedDetails(o.details, f))
  }

  /** The `forEach` over `product_details`, updating the slots in place. */
  method MergeSlotsInPlace(slots: array<Detail>, f: Fields)
    modifies slots
    ensures slots[..] == MergedDetails(old(slots[..]), f)
  {
    var i := 0;
    while i < slots.Length
      invariant 0 <= i <= slots.Length
      invariant forall k :: 0 <= k < i ==> slots[k] == MergeSlot(old(slots[k]), f)
      invariant forall k :: i <= k < slots.Length ==> slots[k] == old(slots[k])
    {
      var key := slots[i].key;
      var v := Get(f, key);
      if Truthy(v) {
        slots[i] := Detail(key, v);
      }
      i := i + 1;
    }
  }

  /** The update handlers' merge as statements: the three scalar assignments, then the in-place slot merge. */
  method MergeUpdate(existing: Offer, f: Fields) returns (updated: Offer)
    requires OfferUpdateSchema(f)
    ensures updated == ApplyUpdate(existing, f)
  {
    var title, description, price := Get(f, "title"), Get(f, "description"), Get(f, "price");
    updated := existing;
    if Truthy(title) {
      updated := updated.(name := title.s);
    }
    if Truthy(description) {
      updated := updated.(description := Some(description.s));
    }
    if Truthy(price) {
      updated := updated.(price := price.n);
    }
    var slots := new Detail[|existing.details|](i requires 0 <= i < |existing.details| => existing.details[i]);
    assert slots[..] == existing.details;
    MergeSlotsInPlace(slots, f);
    updated := updated.(details := slots[..]);
  }

  /** An update never changes the id, the owner, the image, or the slot keys and their order. */
  lemma UpdateKeepsIdentity(o: Offer, f: Fields)
    requires OfferUpdateSchema(f)
    ensures var r := ApplyUpdate(o, f);
      r.id == o.id && r.owner == o.owner && r.image == o.image && SlotKeys(r.details) == SlotKeys(o.details)
  {
  }

  /** A field or slot changes only when the request supplies a truthy value for it, and then takes that value. */
  lemma UpdateWritesOnlyTruthy(o: Offer, f: Fields)
    requires OfferUpdateSchema(f)
    ensures var r := ApplyUpdate(o, f);
      && (Truthy(Get(f, "title")) ==> Str(r.name) == Get(f, "title"))
      && (!Truthy(Get(f, "title")) ==> r.name == o.name)
      && (Truthy(Get(f, "description")) ==> r.description == Some(Get(f, "description").s))
      && (!Truthy(Get(f, "description")) ==> r.description == o.description)
      && (Truthy(Get(f, "price")) ==> Num(r.price) == Get(f, "price"))
      && (!Truthy(Get(f, "price")) ==> r.price == o.price)
      && (forall i :: 0 <= i < |o.details| && Truthy(Get(f, o.details[i].key)) ==>
            r.details[i] == Detail(o.details[i].key, Get(f, o.details[i].key)))
      && (forall i :: 0 <= i < |o.details| && !Truthy(Get(f, o.details[i].key)) ==>
            r.details[i] == o.details[i])
  {
  }

  /** The schemas keep the record invariant: an update of a well-formed offer is well-formed. */
  lemma {:induction false} UpdatePreservesWellFormed(o: Offer, f: Fields)
    requires WellFormedOffer(o) && OfferUpdateSchema(f)
    ensures WellFormedOffer(ApplyUpdate(o, f))
  {
    var r := ApplyUpdate(o, f);
    forall d | d in r.details
      ensures SlotValue(d.value)
    {
      var i :| 0 <= i < |r.details| && r.details[i] == d;
      assert o.details[i] in o.details;
      assert SlotKeys(o.details)[i] == o.details[i].key;
    }
  }

  /** Applying the same update twice is the same as applying it once. */
  lemma {:induction false} UpdateIdempotent(o: Offer, f: Fields)
    requires OfferUpdateSchema(f)
    ensures ApplyUpdate(ApplyUpdate(o, f), f) == ApplyUpdate(o, f)
  {
    var r := ApplyUpdate(o, f);
    var rr := ApplyUpdate(r, f);
    assert rr.details == r.details by {
      forall i | 0 <= i < |r.details|
        ensures rr.details[i] == r.details[i]
      {
        assert r.details[i].key == o.details[i].key;
      }
    }
  }

  /** An update whose values are all falsy (absent, null, the empty string) leaves the offer as it was. */
  lemma {:induction false} FalsyUpdateChangesNothing(o: Offer, f: Fields)
    requires OfferUpdateSchema(f)
    requires forall k :: k in f ==> !Truthy(f[k])
    ensures ApplyUpdate(o, f) == o
  {
    var r := ApplyUpdate(o, f);
    assert r.details == o.details by {
      forall i | 0 <= i < |o.details|
        ensures r.details[i] == o.details[i]
      {
        var k := o.details[i].key;
        assert !Truthy(Get(f, k));
      }
    }
  }

  /** An update that supplies only a price changes the price and nothing else. */
  lemma {:induction false} PriceOnlyUpdate(o: Offer, p: real)
    requires WellFormedOffer(o) && 0.0 < p <= PRICE_MAX
    ensures OfferUpdateSchema(map["price" := Num(p)])
    ensures ApplyUpdate(o, map["price" := Num(p)]) == o.(price := p)
  {
    var f := map["price" := Num(p)];
    assert "price" in f && !f["price"].Undefined?;
    var r := ApplyUpdate(o, f);
    assert r.details == o.details by {
      forall i | 0 <= i < |o.details|
        ensures r.details[i] == o.details[i]
      {
        assert SlotKeys(o.details)[i] == o.details[i].key;
        assert o.details[i].key != "price";
      }
    }
  }

  /** With the request `{title: "Shirt", price: 20}` every slot is present but holds undefined. */
  lemma CreateWithoutAttributes(id: nat, owner: nat)
    ensures OfferCreateSchema(map["title" := Str("Shirt"), "price" := Num(20.0)])
    ensures NewOffer(id, owner, map["title" := Str("Shirt"), "price" := Num(20.0)], None).details ==
      [Detail("brand", Undefined), Detail("size", Undefined), Detail("condition", Undefined),
       Detail("color", Undefined), Detail("city", Undefined)]
  {
  }

  predicate UniqueOfferIds(offers: seq<Offer>) {
    forall i, j :: 0 <= i < j < |offers| ==> offers[i].id != offers[j].id
  }

  /** The offer collection invariant: well-formed records, unique ids below `nextId`, owners that exist. */
  predicate ValidOffers(offers: seq<Offer>, owners: set<nat>, nextId: nat) {
    && UniqueOfferIds(offers)
    && forall o :: o in offers ==> WellFormedOffer(o) && o.id < nextId && o.owner in owners
  }

  /** `Offer.findById(id)`: the position of the offer with this id. */
  function IndexOfOffer(offers: seq<Offer>, id: nat): (r: Option<nat>)
    ensures r.Some? ==> r.value < |offers| && offers[r.value].id == id
    ensures r.None? <==> forall o :: o in offers ==> o.id != id
  {
    FindFirst(offers, (o: Offer) => o.id == id)
  }

  /**
   * `Offer.findById(id)` for an id as a request gives it. The callers refuse a
   * missing or malformed id before the lookup (the database would raise a cast
   * error for the latter); returning None for those is a convention of the model.
   */
  function FindById(offers: seq<Offer>, id: IdArg): (r: Option<nat>)
    ensures r.Some? ==> id.DocId? && r.value < |offers| && offers[r.value].id == id.id
    ensures r.None? <==> !id.DocId? || forall o :: o in offers ==> o.id != id.id
  {
    if id.DocId? then IndexOfOffer(offers, id.id) else None
  }

  /** Removing the offer at `k` removes exactly the offers with its id (one, as ids are unique) and keeps the rest in order. */
  lemma {:induction false} RemoveAtRemovesOnlyTarget(offers: seq<Offer>, k: nat)
    requires UniqueOfferIds(offers) && k < |offers|
    ensures var r := offers[..k] + offers[k + 1..];
      && |r| == |offers| - 1
      && UniqueOfferIds(r)
      && (forall o :: o in r <==> o in offers && o.id != offers[k].id)
  {
    var r := offers[..k] + offers[k + 1..];
    assert forall i :: 0 <= i < |r| ==> r[i] == offers[if i < k then i else i + 1];
    forall o | o in offers && o.id != offers[k].id
      ensures o in r
    {
      var i :| 0 <= i < |offers| && offers[i] == o;
      assert i != k;
      assert r[if i < k then i else i - 1] == o;
    }
  }

  /** Replacing an offer by an update of itself keeps the collection invariant. */
  lemma ReplaceValid(offers: seq<Offer>, owners: set<nat>, nextId: nat, k: nat, o: Offer)
    requires ValidOffers(offers, owners, nextId) && k < |offers|
    requires o.id == offers[k].id && o.owner == offers[k].owner && WellFormedOffer(o)
    ensures ValidOffers(offers[k := o], owners, nextId)
  {
    assert offers[k] in offers;
    var s := offers[k := o];
    forall i, j | 0 <= i < j < |s|
      ensures s[i].id != s[j].id
    {
    }
  }

  /** Appending an offer with a fresh id keeps the collection invariant. */
  lemma AppendOfferValid(offers: seq<Offer>, owners: set<nat>, nextId: nat, o: Offer)
    requires ValidOffers(offers, owners, nextId) && WellFormedOffer(o) && o.owner in owners
    requires o.id < nextId && forall x :: x in offers ==> x.id != o.id
    ensures ValidOffers(offers + [o], owners, nextId)
  {
    var s := offers + [o];
    forall i, j | 0 <= i < j < |s|
      ensures s[i].id != s[j].id
    {
      if j == |offers| {
        assert s[i] in offers;
      }
    }
  }
}

=== FILE: offer_query.dfy ===
/**
 * The offer listing query both front ends run: keep the offers whose title
 * contains the searched text (ignoring letter case) and whose price lies within
 * the inclusive bounds, order them by price when asked, then cut out the page:
 * skip `5 * (page - 1)` offers and keep at most 5.
 */
module OfferQuery {
  import opened Common
  import opened OfferModel

  const PAGE_SIZE: nat := 5

  /** The filters that apply: the front ends leave out the ones whose parameter is falsy. */
  datatype Filter = Filter(title: Option<string>, priceMin: Option<real>, priceMax: Option<real>)

  /** `query.sort(...)`: by price either way, or the store's own order when no sort is recognised. */
  datatype Order = StoreOrder | PriceAscending | PriceDescending

  /** `pat` occurs in `text`, ignoring the case of ASCII letters (`new RegExp(pat, "i")` on a literal). */
  predicate ContainsIgnoringCase(text: string, pat: string)
    decreases |text|
  {
    |pat| <= |text| &&
    (Lower(text[..|pat|]) == Lower(pat) || ContainsIgnoringCase(text[1..], pat))
  }

  predicate Matches(o: Offer, f: Filter) {
    && (f.title.Some? ==> ContainsIgnoringCase(o.name, f.title.value))
    && (f.priceMin.Some? ==> f.priceMin.value <= o.price)
    && (f.priceMax.Some? ==> o.price <= f.priceMax.value)
  }

  /** The offers that match, in store order, each as often as it is stored. */
  function Select(offers: seq<Offer>, f: Filter): (r: seq<Offer>)
    ensures forall o :: o in r <==> o in offers && Matches(o, f)
    ensures forall o :: multiset(r)[o] == if Matches(o, f) then multiset(offers)[o] else 0
  {
    if offers == [] then []
    else
      assert offers == [offers[0]] + offers[1..];
      (if Matches(offers[0], f) then [offers[0]] else []) + Select(offers[1..], f)
  }

  predicate InOrder(a: Offer, b: Offer, ascending: bool) {
    if ascending then a.price <= b.price else a.price >= b.price
  }

  predicate SortedByPrice(s: seq<Offer>, ascending: bool) {
    forall i, j :: 0 <= i < j < |s| ==> InOrder(s[i], s[j], ascending)
  }

  /** A sorted sequence stays sorted under a new head that is in order with every element. */
  lemma ConsSorted(h: Offer, t: seq<Offer>, ascending: bool)
    requires SortedByPrice(t, ascending)
    requires forall x :: x in t ==> InOrder(h, x, ascending)
    ensures SortedByPrice([h] + t, ascending)
  {
    var s := [h] + t;
    forall i, j | 0 <= i < j < |s|
      ensures InOrder(s[i], s[j], ascending)
    {
      if i == 0 {
        assert s[j] == t[j - 1] && t[j - 1] in t;
      } else {
        assert s[i] == t[i - 1] && s[j] == t[j - 1];
      }
    }
  }

  function Insert(o: Offer, s: seq<Offer>, ascending: bool): (r: seq<Offer>)
    requires SortedByPrice(s, ascending)
    ensures SortedByPrice(r, ascending)
    ensures multiset(r) == multiset(s) + multiset{o}
  {
    if s == [] then [o]
    else if InOrder(o, s[0], ascending) then
      assert forall x :: x in s ==> InOrder(o, x, ascending) by {
        forall x | x in s
          ensures InOrder(o, x, ascending)
        {
          var j :| 0 <= j < |s| && s[j] == x;
          assert j == 0 || InOrder(s[0], s[j], ascending);
        }
      }
      ConsSorted(o, s, ascending);
      [o] + s
    else
      var rest := Insert(o, s[1..], ascending);
      assert s == [s[0]] + s[1..];
      assert forall x :: x in rest ==> InOrder(s[0], x, ascending) by {
        forall x | x in rest
          ensures InOrder(s[0], x, ascending)
        {
          assert multiset(rest)[x] > 0;
          if x != o {
            var j :| 0 <= j < |s[1..]| && s[1..][j] == x;
            assert s[j + 1] == x;
          }
        }
      }
      ConsSorted(s[0], rest, ascending);
      [s[0]] + rest
  }

  /** The offers ordered by price, as an insertion sort. */
  function SortByPrice(s: seq<Offer>, ascending: bool): (r: seq<Offer>)
    ensures SortedByPrice(r, ascending)
    ensures multiset(r) == multiset(s)
  {
    if s == [] then []
    else
      assert s == [s[0]] + s[1..];
      Insert(s[0], SortByPrice(s[1..], ascending), ascending)
  }

  /** The requested order: a price sort is a sorted permutation, the store order leaves the list as it is. */
  function Arrange(s: seq<Offer>, order: Order): (r: seq<Offer>)
    ensures multiset(r) == multiset(s)
    ensures order == StoreOrder ==> r == s
    ensures order == PriceAscending ==> SortedByPrice(r, true)
    ensures order == PriceDescending ==> SortedByPrice(r, false)
  {
    match order
    case StoreOrder => s
    case PriceAscending => SortByPrice(s, true)
    case PriceDescending => SortByPrice(s, false)
  }

  /** `.limit(5).skip(skip)`: the offers at positions `skip` up to `skip + 5`. */
  function Page(s: seq<Offer>, skip: nat): (r: seq<Offer>)
    ensures |r| <= PAGE_SIZE
    ensures |r| == if skip >= |s| then 0 else if |s| - skip < PAGE_SIZE then |s| - skip else PAGE_SIZE
    ensures forall i :: 0 <= i < |r| ==> r[i] == s[skip + i]
  {
    if skip >= |s| then []
    else if |s| - skip < PAGE_SIZE then s[skip..]
    else s[skip..skip + PAGE_SIZE]
  }

  /** The offers skipped before page `page` (1-based). */
  function SkipFor(page: nat): nat
    requires page >= 1
  {
    PAGE_SIZE * (page - 1)
  }

  /**
   * The whole query over the stored offers: every offer returned is stored and
   * matches the filter, there are at most 5, and a price order is kept.
   */
  function RunQuery(offers: seq<Offer>, f: Filter, order: Order, skip: nat): (r: seq<Offer>)
    ensures |r| <= PAGE_SIZE
    ensures forall o :: o in r ==> o in offers && Matches(o, f)
    ensures order == PriceAscending ==> SortedByPrice(r, true)
    ensures order == PriceDescending ==> SortedByPrice(r, false)
  {
    ArrangedMembers(Select(offers, f), order);
    Page(Arrange(Select(offers, f), order), skip)
  }

  /** Arranging neither adds nor drops an offer. */
  lemma ArrangedMembers(s: seq<Offer>, order: Order)
    ensures forall o :: o in Arrange(s, order) <==> o in s
  {
    var r := Arrange(s, order);
    forall o
      ensures o in r <==> o in s
    {
      assert o in r <==> multiset(r)[o] > 0;
      assert o in s <==> multiset(s)[o] > 0;
    }
  }

  /** Before paging, the arranged result holds exactly the matching offers, each as often as stored. */
  lemma ArrangedIsPermutationOfMatches(offers: seq<Offer>, f: Filter, order: Order)
    ensures forall o :: multiset(Arrange(Select(offers, f), order))[o] == if Matches(o, f) then multiset(offers)[o] else 0
    ensures forall o :: o in Arrange(Select(offers, f), order) <==> o in offers && Matches(o, f)
  {
    ArrangedMembers(Select(offers, f), order);
  }

  /** With no filter every stored offer is selected, in store order. */
  lemma {:induction false} SelectAll(offers: seq<Offer>)
    ensures Select(offers, Filter(None, None, None)) == offers
  {
    if offers != [] {
      SelectAll(offers[1..]);
      assert offers == [offers[0]] + offers[1..];
    }
  }

  /** The price bounds are inclusive: an offer priced exactly at a bound passes it. */
  lemma InclusiveBounds(o: Offer, title: Option<string>)
    requires title.Some? ==> ContainsIgnoringCase(o.name, title.value)
    ensures Matches(o, Filter(title, Some(o.price), Some(o.price)))
  {
  }

  /** A minimum above the maximum matches nothing. */
  lemma CrossedBoundsMatchNothing(offers: seq<Offer>, title: Option<string>, lo: real, hi: real)
    requires hi < lo
    ensures Select(offers, Filter(title, Some(lo), Some(hi))) == []
  {
  }

  /** The title search ignores letter case and finds the text anywhere in the title. */
  lemma {:induction false} ContainsAnywhere(prefix: string, middle: string, suffix: string, pat: string)
    requires Lower(middle) == Lower(pat)
    ensures ContainsIgnoringCase(prefix + middle + suffix, pat)
    decreases |prefix|
  {
    var text := prefix + middle + suffix;
    if prefix == [] {
      assert text[..|pat|] == middle;
    } else {
      assert text[1..] == prefix[1..] + middle + suffix;
      ContainsAnywhere(prefix[1..], middle, suffix, pat);
    }
  }

  /** With no duplicate offers, two different pages share no offer. */
  lemma {:induction false} PagesDisjoint(s: seq<Offer>, p: nat, q: nat)
    requires NoDuplicates(s) && p >= 1 && q >= 1 && p != q
    ensures forall o :: o in Page(s, SkipFor(p)) ==> o !in Page(s, SkipFor(q))
  {
    var a, b := Page(s, SkipFor(p)), Page(s, SkipFor(q));
    forall o | o in a
      ensures o !in b
    {
      var i :| 0 <= i < |a| && a[i] == o;
    }
  }

  /** Every offer of the arranged result lies on exactly the page its position gives. */
  lemma OnItsPage(s: seq<Offer>, k: nat)
    requires k < |s|
    ensures s[k] in Page(s, SkipFor(k / PAGE_SIZE + 1))
  {
    var skip := SkipFor(k / PAGE_SIZE + 1);
    assert skip <= k < skip + PAGE_SIZE;
    assert Page(s, skip)[k - skip] == s[k];
  }

  /** Offers with unique ids have no duplicates, and neither does any arrangement of their matches. */
  lemma {:induction false} ArrangedHasNoDuplicates(offers: seq<Offer>, f: Filter, order: Order)
    requires UniqueOfferIds(offers)
    ensures NoDuplicates(Arrange(Select(offers, f), order))
  {
    var selected := Select(offers, f);
    SelectKeepsNoDuplicates(offers, f);
    ArrangedIsPermutationOfMatches(offers, f, order);
    NoDuplicatesPermutation(Arrange(selected, order), selected);
  }

  lemma {:induction false} SelectKeepsNoDuplicates(offers: seq<Offer>, f: Filter)
    requires NoDuplicates(offers) || UniqueOfferIds(offers)
    ensures NoDuplicates(Select(offers, f))
  {
    if offers != [] {
      assert offers == [offers[0]] + offers[1..];
      SelectKeepsNoDuplicates(offers[1..], f);
      var rest := Select(offers[1..], f);
      assert offers[0] !in offers[1..];
      assert offers[0] !in rest;
    }
  }
}

=== FILE: offer_validators.dfy ===
/** The offer create, list and update request schemas (validators/offers.js). */
module OfferValidators {
  import opened Common
  import opened Joi

  const TITLE_MAX: nat := 50
  const DESCRIPTION_MAX: nat := 500
  const PRICE_MAX: real := 100000.0

  /** The attribute names, in the order an offer's detail slots hold them. */
  const ATTRIBUTE_KEYS: seq<string> := ["brand", "size", "condition", "color", "city"]

  const CREATE_KEYS: set<string> := {"title", "description", "price", "brand", "size", "condition", "color", "city"}
  const GET_KEYS: set<string> := {"title", "priceMin", "priceMax", "sort", "page"}
  const SORT_VALUES: set<string> := {"price-desc", "price-asc"}

  /** `offerCreateSchema`. */
  predicate OfferCreateSchema(f: Fields) {
    && OnlyKeys(f, CREATE_KEYS)
    && RequiredString(Get(f, "title"), TITLE_MAX)
    && OptionalString(Get(f, "description"), DESCRIPTION_MAX)
    && PositiveNumber(Get(f, "price"), Some(PRICE_MAX))
    && (forall k :: k in ATTRIBUTE_KEYS ==> OptionalAnyString(Get(f, k)))
  }

  /** `offerGetSchema`: every key optional, the two price bounds unrelated to each other. */
  predicate OfferGetSchema(f: Fields) {
    && OnlyKeys(f, GET_KEYS)
    && OptionalString(Get(f, "title"), TITLE_MAX)
    && (Get(f, "priceMin").Undefined? || PositiveNumber(Get(f, "priceMin"), None))
    && (Get(f, "priceMax").Undefined? || PositiveNumber(Get(f, "priceMax"), None))
    && OptionalOneOf(Get(f, "sort"), SORT_VALUES)
    && (Get(f, "page").Undefined? || (IntegerNumber(Get(f, "page")) && PositiveNumber(Get(f, "page"), None)))
  }

  /** `offerUpdateSchema`: the create rules made optional, attributes clearable, at least one key. */
  predicate OfferUpdateSchema(f: Fields) {
    && OnlyKeys(f, CREATE_KEYS)
    && SomeKey(f)
    && OptionalString(Get(f, "title"), TITLE_MAX)
    && OptionalString(Get(f, "description"), DESCRIPTION_MAX)
    && (Get(f, "price").Undefined? || PositiveNumber(Get(f, "price"), Some(PRICE_MAX)))
    && (forall k :: k in ATTRIBUTE_KEYS ==> OptionalClearableString(Get(f, k)))
  }

  /**
   * A created offer has a non-empty title of at most 50 UTF-16 code units (so
   * at most 50 characters), a price in (0, 100000], and a description that is
   * absent or non-empty and at most 500 code units long.
   */
  lemma CreateBounds(f: Fields)
    requires OfferCreateSchema(f)
    ensures Get(f, "title").Str? && Get(f, "title").s != "" && JsLength(Get(f, "title").s) <= 50
    ensures |Get(f, "title").s| <= 50
    ensures Get(f, "price").Num? && 0.0 < Get(f, "price").n <= 100000.0
    ensures Get(f, "description").Undefined? ||
      (Get(f, "description").Str? && Get(f, "description").s != "" && JsLength(Get(f, "description").s) <= 500)
  {
  }

  /** A title of 26 characters above U+FFFF is 52 code units long and refused, though only 26 characters. */
  lemma AstralTitleRefused(title: string)
    requires |title| == 26 && forall i :: 0 <= i < |title| ==> title[i] as int >= 0x1_0000
    ensures !OfferCreateSchema(map["title" := Str(title), "price" := Num(1.0)])
  {
    JsLengthAstral(title);
  }

  /** A title of 50 characters below U+10000 is accepted. */
  lemma BasicTitleAccepted(title: string)
    requires |title| == 50 && forall i :: 0 <= i < |title| ==> title[i] as int < 0x1_0000
    ensures OfferCreateSchema(map["title" := Str(title), "price" := Num(1.0)])
  {
    JsLengthBasic(title);
  }

  /** Every attribute of a create request is absent or a non-empty string. */
  lemma CreateAttributes(f: Fields, i: nat)
    requires OfferCreateSchema(f) && i < |ATTRIBUTE_KEYS|
    ensures Get(f, ATTRIBUTE_KEYS[i]).Undefined? || (Get(f, ATTRIBUTE_KEYS[i]).Str? && Get(f, ATTRIBUTE_KEYS[i]).s != "")
  {
  }

  /** A request the create schema accepts is one the update schema accepts too. */
  lemma {:induction false} CreateAcceptedByUpdate(f: Fields)
    requires OfferCreateSchema(f)
    ensures OfferUpdateSchema(f)
  {
    assert "title" in f && !f["title"].Undefined?;
  }

  /** An update must carry at least one key: the empty request is refused. */
  lemma UpdateRequiresAKey(f: Fields)
    requires forall k :: k in f ==> f[k].Undefined?
    ensures !OfferUpdateSchema(f)
  {
  }

  /** Update accepts the empty string and null for attributes, which create refuses. */
  lemma UpdateAcceptsClearedAttribute(k: string)
    requires k in ATTRIBUTE_KEYS
    ensures OfferUpdateSchema(map[k := Str("")]) && OfferUpdateSchema(map[k := Null])
    ensures !OfferCreateSchema(map["title" := Str("t"), "price" := Num(1.0), k := Str("")])
  {
    assert k in map[k := Str("")];
    assert k in map[k := Null];
  }

  /** The list schema does not relate the two bounds: a minimum above the maximum passes. */
  lemma GetBoundsIndependent()
    ensures OfferGetSchema(map["priceMin" := Num(10.0), "priceMax" := Num(5.0)])
  {
  }

  /** Sort accepts exactly the two price orders; the page must be a positive integer. */
  lemma GetSortAndPage(f: Fields)
    requires OfferGetSchema(f)
    ensures Get(f, "sort").Undefined? || Get(f, "sort") == Str("price-desc") || Get(f, "sort") == Str("price-asc")
    ensures Get(f, "page").Undefined? || (Get(f, "page").Num? && Get(f, "page").n >= 1.0 && Get(f, "page").n.Floor as real == Get(f, "page").n)
    ensures Get(f, "priceMin").Undefined? || (Get(f, "priceMin").Num? && Get(f, "priceMin").n > 0.0)
  {
  }
}

=== FILE: rest_offers.dfy ===
/**
 * The REST offer routes (routes/offers.js): publish, list, read, delete and
 * update. Publish, delete and update run behind the authentication middleware.
 * A failure inside a route's `try` is answered with status 400.
 */
module RestOffers {
  import opened Common
  import opened Joi
  import opened OfferValidators
  import opened UserModel
  import opened OfferModel
  import opened OfferQuery
  import opened Database
  import opened Http
  import opened Authentication

  /** The image an optional picture upload yields. */
  function ImageOf(picture: Option<Upload>): Option<ImageRef> {
    if picture.Some? && picture.value.Uploaded? then Some(picture.value.image) else None
  }

  /** The picture part of a request went through: there was none, or its upload succeeded. */
  predicate PictureOk(picture: Option<Upload>) {
    picture.Some? ==> picture.value.Uploaded?
  }

  /**
   * `POST /offer/publish`. `picture` is absent when the request carries no
   * picture file, else what the image service answered.
   */
  method Publish(store: Store, req: Request, fields: Fields, picture: Option<Upload>) returns (resp: Response)
    requires store.Valid()
    modifies store, req
    ensures store.Valid() && store.users == old(store.users)
    ensures var owner := TokenOwner(old(store.users), req.authorization);
      && (owner.None? ==> resp == Response(401, ErrorText("Unauthorized")))
      && (owner.Some? && !OfferCreateSchema(fields) ==> resp == Response(400, ErrorObject(SchemaViolation)))
      && (owner.Some? && OfferCreateSchema(fields) && !PictureOk(picture) ==>
            resp == Response(400, ErrorObject(Message(picture.value.reason))))
      && (resp.status == 200 <==> owner.Some? && OfferCreateSchema(fields) && PictureOk(picture))
      && (resp.status == 200 ==>
            resp.body.OfferJson? && resp.body.offer == NewOffer(resp.body.offer.id, owner.value.id, fields, ImageOf(picture)))
    ensures resp.status == 200 ==>
      store.offers == old(store.offers) + [resp.body.offer] && forall o :: o in old(store.offers) ==> o.id != resp.body.offer.id
    ensures resp.status != 200 ==> store.offers == old(store.offers)
  {
    var step := IsAuthenticated(store.users, req);
    if step.Halt? {
      return step.response;
    }
    if !OfferCreateSchema(fields) {
      return Response(400, ErrorObject(SchemaViolation));
    }
    var id := store.NewId();
    var image: Option<ImageRef> := None;
    if picture.Some? {
      match picture.value
      case UploadFailed(reason) =>
        return Response(400, ErrorObject(Message(reason)));
      case Uploaded(img) =>
        image := Some(img);
    }
    var created := NewOffer(id, req.user.value.id, fields, image);
    store.InsertOffer(created);
    return Response(200, OfferJson(created));
  }

  /** A price bound read from the query string: absent or empty, a number, or text that is not one. */
  datatype Bound = NoBound | BoundAt(x: real) | Unparsable

  /** A query-string parameter as a JavaScript value: the text given, or undefined. */
  function QueryValue(query: map<string, string>, key: string): Value {
    if key in query then Str(query[key]) else Undefined
  }

  /** `if (priceMin)`: a falsy parameter sets no bound; a truthy one bounds at the number it reads as. */
  function QueryBound(env: Env, query: map<string, string>, key: string): (r: Bound)
    ensures r.NoBound? <==> !Truthy(QueryValue(query, key))
    ensures r.BoundAt? ==> env.parseNumber(query[key]) == Some(r.x)
    ensures r.Unparsable? ==> env.parseNumber(query[key]).None?
  {
    if key !in query || query[key] == "" then NoBound
    else match env.parseNumber(query[key])
      case None => Unparsable
      case Some(x) => BoundAt(x)
  }

  function BoundFilter(b: Bound): Option<real> {
    if b.BoundAt? then Some(b.x) else None
  }

  /** The filters a query string asks for: those whose parameter is a non-empty string. */
  function QueryFilter(env: Env, query: map<string, string>): (r: Filter)
    ensures r.title.Some? <==> Truthy(QueryValue(query, "title"))
    ensures r.title.Some? ==> r.title.value == query["title"]
    ensures r.priceMin.Some? <==> QueryBound(env, query, "priceMin").BoundAt?
    ensures r.priceMin.Some? ==> QueryBound(env, query, "priceMin") == BoundAt(r.priceMin.value)
    ensures r.priceMax.Some? <==> QueryBound(env, query, "priceMax").BoundAt?
    ensures r.priceMax.Some? ==> QueryBound(env, query, "priceMax") == BoundAt(r.priceMax.value)
  {
    Filter(if "title" in query && query["title"] != "" then Some(query["title"]) else None,
           BoundFilter(QueryBound(env, query, "priceMin")),
           BoundFilter(QueryBound(env, query, "priceMax")))
  }

  /** The sort parameter: only the two values the list schema names order by price; anything else is ignored. */
  function QueryOrder(query: map<string, string>): (r: Order)
    ensures r != StoreOrder <==> "sort" in query && query["sort"] in SORT_VALUES
    ensures r == PriceAscending <==> QueryValue(query, "sort") == Str("price-asc")
  {
    if "sort" in query && query["sort"] == "price-desc" then PriceDescending
    else if "sort" in query && query["sort"] == "price-asc" then PriceAscending
    else StoreOrder
  }

  /** `5 * (page - 1)` with `page` read from the query string (1 when absent); None when the store refuses it. */
  function QuerySkip(env: Env, query: map<string, string>): (r: Option<nat>)
    ensures "page" !in query ==> r == Some(0)
    ensures "page" in query && env.parseNumber(query["page"]).None? ==> r.None?
    ensures r.Some? && "page" in query ==>
      r.value as real == PAGE_SIZE as real * (env.parseNumber(query["page"]).value - 1.0)
  {
    var page := if "page" in query then env.parseNumber(query["page"]) else Some(1.0);
    match page
    case None => None
    case Some(p) =>
      var skip := PAGE_SIZE as real * (p - 1.0);
      if 0.0 <= skip && skip.Floor as real == skip then Some(skip.Floor as nat) else None
  }

  lemma FloorShift(x: real, n: int)
    ensures (x + n as real).Floor == x.Floor + n
  {
  }

  /** A page number that reads as a positive whole number skips the pages before it. */
  lemma QuerySkipOfPage(env: Env, query: map<string, string>, n: nat)
    requires n >= 1 && "page" in query && env.parseNumber(query["page"]) == Some(n as real)
    ensures QuerySkip(env, query) == Some(SkipFor(n))
  {
    var m := SkipFor(n);
    var skip := PAGE_SIZE as real * (n as real - 1.0);
    assert skip == 0.0 + m as real;
    FloorShift(0.0, m);
  }

  /** A page number is accepted exactly when it is at least 1 and five times it is whole. */
  lemma QuerySkipAcceptance(env: Env, query: map<string, string>, p: real)
    requires "page" in query && env.parseNumber(query["page"]) == Some(p)
    ensures QuerySkip(env, query).Some? <==> 1.0 <= p && (5.0 * p).Floor as real == 5.0 * p
  {
    var skip := PAGE_SIZE as real * (p - 1.0);
    assert skip == 5.0 * p + (-5) as real;
    FloorShift(5.0 * p, -5);
  }

  /** `GET /offers`: validates the body fields, then filters by the query string. */
  function ListOffers(env: Env, offers: seq<Offer>, fields: Fields, query: map<string, string>): (resp: Response)
    ensures !OfferGetSchema(fields) ==> resp == Response(400, ErrorObject(SchemaViolation))
    ensures (OfferGetSchema(fields) &&
             (QueryBound(env, query, "priceMin").Unparsable? || QueryBound(env, query, "priceMax").Unparsable?)) ==>
      resp == Response(400, ErrorObject(CastFailure))
    ensures (OfferGetSchema(fields) &&
             !QueryBound(env, query, "priceMin").Unparsable? && !QueryBound(env, query, "priceMax").Unparsable? &&
             QuerySkip(env, query).None?) ==>
      resp == Response(400, ErrorObject(QueryRejected))
    ensures resp.status == 200 <==>
      && OfferGetSchema(fields)
      && !QueryBound(env, query, "priceMin").Unparsable? && !QueryBound(env, query, "priceMax").Unparsable?
      && QuerySkip(env, query).Some?
    ensures resp.status == 200 ==>
      && resp.body.OfferListJson? && QuerySkip(env, query).Some?
      && resp.body.offers == Page(Arrange(Select(offers, QueryFilter(env, query)), QueryOrder(query)), QuerySkip(env, query).value)
    ensures resp.status == 200 ==>
      && resp.body.OfferListJson? && |resp.body.offers| <= PAGE_SIZE
      && (forall o :: o in resp.body.offers ==> o in offers && Matches(o, QueryFilter(env, query)))
      && (QueryOrder(query) == PriceAscending ==> SortedByPrice(resp.body.offers, true))
      && (QueryOrder(query) == PriceDescending ==> SortedByPrice(resp.body.offers, false))
    ensures resp.status in {200, 400}
  {
    if !OfferGetSchema(fields) then Response(400, ErrorObject(SchemaViolation))
    else if QueryBound(env, query, "priceMin").Unparsable? || QueryBound(env, query, "priceMax").Unparsable? then
      Response(400, ErrorObject(CastFailure))
    else match QuerySkip(env, query)
      case None => Response(400, ErrorObject(QueryRejected))
      case Some(skip) =>
        Response(200, OfferListJson(RunQuery(offers, QueryFilter(env, query), QueryOrder(query), skip)))
  }

  /**
   * A query string whose page reads as `n >= 1` gets the arranged matches of its
   * filters from position `5 * (n - 1)` on: at most 5, fewer only when they run out.
   */
  lemma ListOffersSkipsEarlierPages(env: Env, offers: seq<Offer>, fields: Fields, query: map<string, string>, n: nat)
    requires ListOffers(env, offers, fields, query).status == 200
    requires n >= 1 && "page" in query && env.parseNumber(query["page"]) == Some(n as real)
    ensures var all := Arrange(Select(offers, QueryFilter(env, query)), QueryOrder(query));
      var r := ListOffers(env, offers, fields, query).body.offers;
      && |r| == (if |all| <= SkipFor(n) then 0 else if |all| - SkipFor(n) < PAGE_SIZE then |all| - SkipFor(n) else PAGE_SIZE)
      && forall i :: 0 <= i < |r| ==> r[i] == all[SkipFor(n) + i]
  {
    var all := Arrange(Select(offers, QueryFilter(env, query)), QueryOrder(query));
    assert ListOffers(env, offers, fields, query).body.offers == Page(all, SkipFor(n)) by {
      QuerySkipOfPage(env, query, n);
    }
  }

  /** The query string is not validated: an unknown sort is ignored and the first page comes in store order. */
  lemma {:induction false} QueryNotValidated(env: Env, offers: seq<Offer>)
    ensures ListOffers(env, offers, map[], map["sort" := "cheapest"]) == Response(200, OfferListJson(Page(offers, 0)))
  {
    var query := map["sort" := "cheapest"];
    assert OfferGetSchema(map[]);
    assert QueryBound(env, query, "priceMin") == NoBound && QueryBound(env, query, "priceMax") == NoBound;
    assert QuerySkip(env, query) == Some(0);
    assert QueryFilter(env, query) == Filter(None, None, None);
    assert QueryOrder(query) == StoreOrder;
    SelectAll(offers);
  }

  /** The body is what is validated: a bad sort there is refused whatever the query string says. */
  lemma FieldsValidatedInstead(env: Env, offers: seq<Offer>, query: map<string, string>)
    ensures ListOffers(env, offers, map["sort" := Str("cheapest")], query) == Response(400, ErrorObject(SchemaViolation))
  {
    assert !OptionalOneOf(Get(map["sort" := Str("cheapest")], "sort"), SORT_VALUES);
  }

  /** `GET /offer/:offerId`. */
  function GetOffer(offers: seq<Offer>, id: IdArg): (resp: Response)
    ensures id.NoId? ==> resp == Response(400, ErrorObject(Message("Missing offer ID")))
    ensures id.MalformedId? ==> resp == Response(400, ErrorObject(CastFailure))
    ensures id.DocId? ==> (resp.status == 200 <==> exists o :: o in offers && o.id == id.id)
    ensures id.DocId? && resp.status != 200 ==> resp == Response(404, MessageObject("Offer not found"))
    ensures resp.status == 200 ==> id.DocId? && resp.body.OfferJson? && resp.body.offer in offers && resp.body.offer.id == id.id
  {
    match id
    case NoId => Response(400, ErrorObject(Message("Missing offer ID")))
    case MalformedId => Response(400, ErrorObject(CastFailure))
    case DocId(_) =>
      match FindById(offers, id)
      case None => Response(404, MessageObject("Offer not found"))
      case Some(k) => Response(200, OfferJson(offers[k]))
  }

  /** `DELETE /offer/:offerId`, by any authenticated user. */
  method DeleteOffer(store: Store, req: Request, id: IdArg) returns (resp: Response)
    requires store.Valid()
    modifies store, req
    ensures store.Valid() && store.users == old(store.users)
    ensures var owner := TokenOwner(old(store.users), req.authorization);
      && (owner.None? ==> resp == Response(401, ErrorText("Unauthorized")))
      && (owner.Some? && id.NoId? ==> resp == Response(400, ErrorObject(Message("Missing offer ID"))))
      && (owner.Some? && id.MalformedId? ==> resp == Response(400, ErrorObject(CastFailure)))
      && (owner.Some? && id.DocId? && FindById(old(store.offers), id).None? ==>
            resp == Response(404, MessageObject("Offer not found")))
      && (resp.status == 200 <==> owner.Some? && FindById(old(store.offers), id).Some?)
      && (resp.status == 200 ==> resp.body == MessageObject("Offer deleted"))
    ensures resp.status == 200 ==>
      && |store.offers| == |old(store.offers)| - 1
      && forall o :: o in store.offers <==> o in old(store.offers) && o.id != id.id
    ensures resp.status != 200 ==> store.offers == old(store.offers)
  {
    var step := IsAuthenticated(store.users, req);
    if step.Halt? {
      return step.response;
    }
    if id.NoId? {
      return Response(400, ErrorObject(Message("Missing offer ID")));
    }
    if id.MalformedId? {
      return Response(400, ErrorObject(CastFailure));
    }
    var found := FindById(store.offers, id);
    if found.None? {
      return Response(404, MessageObject("Offer not found"));
    }
    RemoveAtRemovesOnlyTarget(store.offers, found.value);
    store.DeleteOfferAt(found.value);
    return Response(200, MessageObject("Offer deleted"));
  }

  /** The image after an update: the new upload's, or the one the offer had. */
  function ImageAfter(current: Option<ImageRef>, picture: Option<Upload>): Option<ImageRef> {
    if picture.Some? && picture.value.Uploaded? then Some(picture.value.image) else current
  }

  /** `PUT /offer/:offerId`: the partial merge, by any authenticated user. */
  method UpdateOffer(store: Store, req: Request, id: IdArg, fields: Fields, picture: Option<Upload>) returns (resp: Response)
    requires store.Valid()
    modifies store, req
    ensures store.Valid() && store.users == old(store.users)
    ensures var owner := TokenOwner(old(store.users), req.authorization);
      var found := FindById(old(store.offers), id);
      && (owner.None? ==> resp == Response(401, ErrorText("Unauthorized")))
      && (owner.Some? && !OfferUpdateSchema(fields) ==> resp == Response(400, ErrorObject(SchemaViolation)))
      && (owner.Some? && OfferUpdateSchema(fields) && id.MalformedId? ==> resp == Response(400, ErrorObject(CastFailure)))
      && (owner.Some? && OfferUpdateSchema(fields) && !id.MalformedId? && found.None? ==>
            resp == Response(404, MessageObject("Offer not found")))
      && (owner.Some? && OfferUpdateSchema(fields) && found.Some? && !PictureOk(picture) ==>
            resp == Response(400, ErrorObject(Message(picture.value.reason))))
      && (resp.status == 200 <==> owner.Some? && OfferUpdateSchema(fields) && found.Some? && PictureOk(picture))
      && (resp.status == 200 ==>
            var before := old(store.offers)[found.value];
            var after := ApplyUpdate(before, fields).(image := ImageAfter(before.image, picture));
            store.offers == old(store.offers)[found.value := after] && resp.body == OfferJson(after))
    ensures resp.status != 200 ==> store.offers == old(store.offers)
  {
    var step := IsAuthenticated(store.users, req);
    if step.Halt? {
      return step.response;
    }
    if !OfferUpdateSchema(fields) {
      return Response(400, ErrorObject(SchemaViolation));
    }
    if id.MalformedId? {
      return Response(400, ErrorObject(CastFailure));
    }
    var found := FindById(store.offers, id);
    if found.None? {
      return Response(404, MessageObject("Offer not found"));
    }
    var k := found.value;
    var before := store.offers[k];
    var updated := MergeUpdate(before, fields);
    if picture.Some? {
      match picture.value
      case UploadFailed(reason) =>
        return Response(400, ErrorObject(Message(reason)));
      case Uploaded(img) =>
        updated := updated.(image := Some(img));
    }
    assert before in store.offers;
    UpdatePreservesWellFormed(before, fields);
    store.ReplaceOffer(k, updated);
    return Response(200, OfferJson(updated));
  }
}

=== FILE: rest_users.dfy ===
/**
 * The REST user routes (routes/users.js): `POST /user/login` and
 * `POST /user/signup`. They read loosely typed form fields and check only
 * truthiness; no Joi schema applies.
 */
module RestUsers {
  import opened Common
  import opened UserModel
  import opened Database
  import opened Http

  /** The body both routes answer with: `{_id, token, account: {username, phone}}`. */
  function SessionOf(u: User): Body {
    SessionJson(u.id, u.token, u.account.username, u.account.phone)
  }

  /** A field as Mongoose casts it into the e-mail path; unset becomes the empty string. */
  function EmailText(env: Env, v: Value): string {
    match CastString(env, v)
    case None => ""
    case Some(e) => e
  }

  /** `POST /user/login`. */
  function Login(env: Env, users: seq<User>, fields: Fields): (resp: Response)
    ensures !Truthy(Get(fields, "email")) || !Truthy(Get(fields, "password")) ==>
      resp == Response(400, ErrorObject(Message("Invalid request")))
    ensures resp == Response(400, ErrorObject(Message("User unknown"))) <==>
      (Truthy(Get(fields, "email")) && Truthy(Get(fields, "password")) &&
       forall u :: u in users ==> u.email != EmailText(env, Get(fields, "email")))
    ensures var found := FindByEmail(users, EmailText(env, Get(fields, "email")));
      resp == Response(400, ErrorObject(Message("Unauthorized"))) <==>
        (Truthy(Get(fields, "email")) && Truthy(Get(fields, "password")) && found.Some? &&
         env.sha256(JsConcat(env, Get(fields, "password"), found.value.salt)) != found.value.hash)
    ensures resp.status == 200 ==> exists u ::
      && u in users && u.email == EmailText(env, Get(fields, "email"))
      && env.sha256(JsConcat(env, Get(fields, "password"), u.salt)) == u.hash
      && resp.body == SessionOf(u)
    ensures resp.status != 200 ==>
      (resp.status == 400 && resp.body in
        {ErrorObject(Message("Invalid request")), ErrorObject(Message("User unknown")), ErrorObject(Message("Unauthorized"))})
  {
    var email, password := Get(fields, "email"), Get(fields, "password");
    if !Truthy(email) || !Truthy(password) then Response(400, ErrorObject(Message("Invalid request")))
    else match FindByEmail(users, EmailText(env, email))
      case None => Response(400, ErrorObject(Message("User unknown")))
      case Some(u) =>
        if env.sha256(JsConcat(env, password, u.salt)) != u.hash then Response(400, ErrorObject(Message("Unauthorized")))
        else Response(200, SessionOf(u))
  }

  /** With unique e-mails, a stored user's e-mail and a password that reproduces the hash log that user in. */
  lemma {:induction false} LoginWithStoredPassword(env: Env, users: seq<User>, u: User, fields: Fields)
    requires UniqueEmails(users) && u in users
    requires Truthy(Get(fields, "email")) && Truthy(Get(fields, "password"))
    requires EmailText(env, Get(fields, "email")) == u.email
    requires env.sha256(JsConcat(env, Get(fields, "password"), u.salt)) == u.hash
    ensures Login(env, users, fields) == Response(200, SessionOf(u))
  {
    FindByEmailUnique(users, u);
  }

  /** With unique e-mails, a stored user's e-mail and a password that does not reproduce the hash get 400 "Unauthorized". */
  lemma {:induction false} LoginWithWrongPassword(env: Env, users: seq<User>, u: User, fields: Fields)
    requires UniqueEmails(users) && u in users
    requires Truthy(Get(fields, "email")) && Truthy(Get(fields, "password"))
    requires EmailText(env, Get(fields, "email")) == u.email
    requires env.sha256(JsConcat(env, Get(fields, "password"), u.salt)) != u.hash
    ensures Login(env, users, fields) == Response(400, ErrorObject(Message("Unauthorized")))
  {
    FindByEmailUnique(users, u);
  }

  /**
   * The user `new User({...})` builds from the signup fields. Its avatar is never
   * set, and a missing password is hashed as the text "undefined".
   */
  function NewUser(env: Env, id: nat, fields: Fields, salt: string, token: string): (u: User)
    ensures u.id == id && u.salt == salt && u.token == token && u.account.avatar.None?
    ensures Get(fields, "email").Str? ==> u.email == Get(fields, "email").s
    ensures Get(fields, "username").Str? ==> u.account.username == Some(Get(fields, "username").s)
    ensures Get(fields, "password").Str? ==> u.hash == env.sha256(Get(fields, "password").s + salt)
    ensures "password" !in fields ==> u.hash == env.sha256("undefined" + salt)
  {
    User(id, EmailText(env, Get(fields, "email")),
         Account(CastString(env, Get(fields, "username")), CastString(env, Get(fields, "phone")), None),
         token, env.sha256(JsConcat(env, Get(fields, "password"), salt)), salt)
  }

  /**
   * `POST /user/signup`. `salt` and `token` are the two `uid2(16)` draws;
   * `picture` is absent when no picture file came with the request, else what
   * the image service answered. The route hands the service the property
   * `epath` of the file, which is undefined: the picture itself is never sent,
   * and whatever the service answers is never stored.
   */
  method Signup(store: Store, env: Env, fields: Fields, salt: string, token: string, picture: Option<Upload>)
    returns (resp: Response)
    requires store.Valid() && |salt| == 16 && |token| == 16
    modifies store
    ensures store.Valid() && store.offers == old(store.offers)
    ensures var username, email := Get(fields, "username"), Get(fields, "email");
      var taken := Truthy(email) && FindByEmail(old(store.users), EmailText(env, email)).Some?;
      var u := NewUser(env, old(store.nextId), fields, salt, token);
      && (!Truthy(username) ==> resp == Response(400, ErrorObject(Message("Invalid request: username is mandatory"))))
      && (Truthy(username) && taken ==>
            resp == Response(409, ErrorObject(Message("Invalid request: a user is already registered with this email"))))
      && (Truthy(username) && !taken && picture.Some? && picture.value.UploadFailed? ==>
            resp == Response(400, ErrorObject(Message(picture.value.reason))))
      && (Truthy(username) && !taken && (picture.Some? ==> picture.value.Uploaded?) && SaveUserFailure(old(store.users), u).Some? ==>
            resp == Response(400, ErrorObject(SaveUserFailure(old(store.users), u).value)))
      && (resp.status == 200 <==>
            (Truthy(username) && !taken && (picture.Some? ==> picture.value.Uploaded?) && SaveUserFailure(old(store.users), u).None?))
      && (resp.status == 200 ==> store.users == old(store.users) + [u] && resp.body == SessionOf(u))
      && (resp.status == 200 && Truthy(email) && Truthy(Get(fields, "password")) ==>
            Login(env, store.users, map["email" := email, "password" := Get(fields, "password")]) == resp)
    ensures resp.status != 200 ==> store.users == old(store.users)
  {
    var username, email := Get(fields, "username"), Get(fields, "email");
    if !Truthy(username) {
      return Response(400, ErrorObject(Message("Invalid request: username is mandatory")));
    }
    if Truthy(email) && FindByEmail(store.users, EmailText(env, email)).Some? {
      return Response(409, ErrorObject(Message("Invalid request: a user is already registered with this email")));
    }
    var id := store.NewId();
    var u := NewUser(env, id, fields, salt, token);
    if picture.Some? && picture.value.UploadFailed? {
      return Response(400, ErrorObject(Message(picture.value.reason)));
    }
    var failure := store.SaveUser(u);
    if failure.Some? {
      return Response(400, ErrorObject(failure.value));
    }
    if Truthy(email) && Truthy(Get(fields, "password")) {
      assert u in store.users;
      LoginWithStoredPassword(env, store.users, u, map["email" := email, "password" := Get(fields, "password")]);
    }
    return Response(200, SessionOf(u));
  }

  /**
   * A signup without a password hashes the text "undefined" with the salt, so
   * the password "undefined" then logs that user in.
   */
  lemma {:induction false} MissingPasswordIsUndefined(env: Env, users: seq<User>, id: nat, fields: Fields, salt: string, token: string)
    requires "password" !in fields && Truthy(Get(fields, "email"))
    requires UniqueEmails(users + [NewUser(env, id, fields, salt, token)])
    ensures Login(env, users + [NewUser(env, id, fields, salt, token)],
                  map["email" := Get(fields, "email"), "password" := Str("undefined")]).status == 200
  {
    var u := NewUser(env, id, fields, salt, token);
    LoginWithStoredPassword(env, users + [u], u, map["email" := Get(fields, "email"), "password" := Str("undefined")]);
  }
}

=== FILE: user_model.dfy ===
/**
 * The User record (models/User.js) and the rules the user collection keeps:
 * e-mail, token, hash and salt are required strings, the e-mail is unique.
 */
module UserModel {
  import opened Common

  /** The profile part of a user; every field is optional. */
  datatype Account = Account(username: Option<string>, phone: Option<string>, avatar: Option<ImageRef>)

  datatype User = User(id: nat, email: string, account: Account, token: string, hash: string, salt: string)

  /** Mongoose's `required: true` on a String path refuses an unset or empty string. */
  predicate RequiredFieldsPresent(u: User) {
    u.email != "" && u.token != "" && u.hash != "" && u.salt != ""
  }

  predicate UniqueEmails(users: seq<User>) {
    forall i, j :: 0 <= i < j < |users| ==> users[i].email != users[j].email
  }

  predicate UniqueUserIds(users: seq<User>) {
    forall i, j :: 0 <= i < j < |users| ==> users[i].id != users[j].id
  }

  function UserIds(users: seq<User>): set<nat> {
    set u | u in users :: u.id
  }

  /** The collection invariant: every record complete, e-mails and ids unique, ids below `nextId`. */
  predicate ValidUsers(users: seq<User>, nextId: nat) {
    && UniqueEmails(users)
    && UniqueUserIds(users)
    && (forall u :: u in users ==> RequiredFieldsPresent(u) && u.id < nextId)
  }

  /** `User.findOne({email})`: the first user with exactly this e-mail. */
  function FindByEmail(users: seq<User>, email: string): (r: Option<User>)
    ensures r.Some? ==> r.value in users && r.value.email == email
    ensures r.None? <==> forall u :: u in users ==> u.email != email
  {
    match FindFirst(users, (u: User) => u.email == email)
    case None => None
    case Some(i) => Some(users[i])
  }

  /** `User.findOne({token})`: the first user with exactly this token. */
  function FindByToken(users: seq<User>, token: string): (r: Option<User>)
    ensures r.Some? ==> r.value in users && r.value.token == token
    ensures r.None? <==> forall u :: u in users ==> u.token != token
  {
    match FindFirst(users, (u: User) => u.token == token)
    case None => None
    case Some(i) => Some(users[i])
  }

  /** With unique e-mails, looking a stored user up by e-mail finds that user. */
  lemma {:induction false} FindByEmailUnique(users: seq<User>, u: User)
    requires UniqueEmails(users) && u in users
    ensures FindByEmail(users, u.email) == Some(u)
  {
    var i :| 0 <= i < |users| && users[i] == u;
    var r := FindFirst(users, (v: User) => v.email == u.email);
    assert r.Some?;
  }

  /** Appending a user whose e-mail is new keeps the e-mails unique and makes that user the one found. */
  lemma {:induction false} AppendNewEmail(users: seq<User>, u: User)
    requires UniqueEmails(users) && FindByEmail(users, u.email).None?
    ensures UniqueEmails(users + [u])
    ensures FindByEmail(users + [u], u.email) == Some(u)
    ensures forall e :: e != u.email ==> FindByEmail(users + [u], e) == FindByEmail(users, e)
  {
    var s := users + [u];
    forall i, j | 0 <= i < j < |s|
      ensures s[i].email != s[j].email
    {
      if j == |users| {
        assert s[i] in users;
      }
    }
    FindByEmailUnique(s, u);
    forall e | e != u.email
      ensures FindByEmail(s, e) == FindByEmail(users, e)
    {
      FindFirstAppend(users, u, (v: User) => v.email == e);
    }
  }

  /** Appending a new user preserves the collection invariant. */
  lemma AppendValid(users: seq<User>, nextId: nat, u: User, nextId': nat)
    requires ValidUsers(users, nextId) && RequiredFieldsPresent(u)
    requires FindByEmail(users, u.email).None? && u.id !in UserIds(users)
    requires u.id < nextId' && nextId <= nextId'
    ensures ValidUsers(users + [u], nextId')
    ensures UserIds(users + [u]) == UserIds(users) + {u.id}
  {
    AppendNewEmail(users, u);
    var s := users + [u];
    forall i, j | 0 <= i < j < |s|
      ensures s[i].id != s[j].id
    {
      if j == |users| {
        assert s[i] in users;
        assert s[i].id in UserIds(users);
      }
    }
  }
}

=== FILE: user_validators.dfy ===
/** The signup and login request schemas (validators/users.js). */
module UserValidators {
  import opened Common
  import opened Joi

  const SIGNUP_KEYS: set<string> := {"email", "username", "password", "phone", "avatar"}
  const LOGIN_KEYS: set<string> := {"email", "password"}

  /** The extensions the avatar pattern accepts, compared without regard to case. */
  const IMAGE_EXTENSIONS: seq<string> := ["jpg", "jpeg", "png", "gif", "webp", "bmp", "svg"]

  predicate EndsWith(s: string, suffix: string) {
    |suffix| <= |s| && s[|s| - |suffix|..] == suffix
  }

  /** The pattern `\.(jpg|jpeg|png|gif|webp|bmp|svg)$` with the `i` flag. */
  predicate HasImageExtension(s: string) {
    exists e :: e in IMAGE_EXTENSIONS && EndsWith(Lower(s), "." + e)
  }

  /** `Joi.string().email().required()`. */
  predicate EmailRule(isEmail: string -> bool, v: Value) {
    NonEmptyString(v) && isEmail(v.s)
  }

  /** `Joi.string().pattern(...).optional()` for the avatar. */
  predicate AvatarRule(v: Value) {
    v.Undefined? || (NonEmptyString(v) && HasImageExtension(v.s))
  }

  /** `signupSchema`. */
  predicate SignupSchema(isEmail: string -> bool, f: Fields) {
    && OnlyKeys(f, SIGNUP_KEYS)
    && EmailRule(isEmail, Get(f, "email"))
    && NonEmptyString(Get(f, "username"))
    && NonEmptyString(Get(f, "password"))
    && OptionalAnyString(Get(f, "phone"))
    && AvatarRule(Get(f, "avatar"))
  }

  /** `loginSchema`. */
  predicate LoginSchema(isEmail: string -> bool, f: Fields) {
    && OnlyKeys(f, LOGIN_KEYS)
    && EmailRule(isEmail, Get(f, "email"))
    && NonEmptyString(Get(f, "password"))
  }

  /** An accepted signup names an e-mail, a username and a password, all non-empty strings. */
  lemma SignupRequiresCredentials(isEmail: string -> bool, f: Fields)
    requires SignupSchema(isEmail, f)
    ensures Get(f, "email").Str? && isEmail(Get(f, "email").s) && Get(f, "email").s != ""
    ensures Get(f, "username").Str? && Get(f, "username").s != ""
    ensures Get(f, "password").Str? && Get(f, "password").s != ""
  {
  }

  /** The phone and the avatar may be left out of a signup. */
  lemma SignupOptionalFields(isEmail: string -> bool, email: string, username: string, password: string)
    requires isEmail(email) && email != "" && username != "" && password != ""
    ensures SignupSchema(isEmail, map["email" := Str(email), "username" := Str(username), "password" := Str(password)])
  {
  }

  /** The credentials of an accepted signup are themselves an accepted login. */
  lemma SignupCredentialsPassLogin(isEmail: string -> bool, f: Fields)
    requires SignupSchema(isEmail, f)
    ensures LoginSchema(isEmail, map["email" := Get(f, "email"), "password" := Get(f, "password")])
  {
  }

  /** A login lacking its e-mail or its password is refused. */
  lemma LoginRequiresBoth(isEmail: string -> bool, f: Fields)
    requires !NonEmptyString(Get(f, "email")) || !NonEmptyString(Get(f, "password"))
    ensures !LoginSchema(isEmail, f)
  {
  }

  /** The avatar pattern accepts any name followed by a dot and a listed extension, in any letter case. */
  lemma {:induction false} AvatarExtensionAnyCase(name: string, ext: string, e: string)
    requires e in IMAGE_EXTENSIONS && Lower(ext) == e
    ensures AvatarRule(Str(name + "." + ext))
  {
    var s := name + "." + ext;
    LowerConcat(name + ".", ext);
    LowerConcat(name, ".");
    assert Lower(".") == ".";
    assert Lower(s) == Lower(name) + ("." + e);
    assert EndsWith(Lower(s), "." + e);
  }

  /** A name whose last extension is not listed is refused as an avatar. */
  lemma AvatarRejectsOtherExtension()
    ensures !AvatarRule(Str("photo.pngx"))
  {
    var a := Lower("photo.pngx");
    assert a[|a| - 1] == 'x';
    forall e | e in IMAGE_EXTENSIONS
      ensures !EndsWith(a, "." + e)
    {
      assert e[|e| - 1] != 'x';
    }
  }

  /** The dot is part of the pattern: a bare extension is refused. */
  lemma AvatarRequiresDot()
    ensures !AvatarRule(Str("png"))
  {
    forall e | e in IMAGE_EXTENSIONS
      ensures !EndsWith(Lower("png"), "." + e)
    {
      assert |e| >= 3;
    }
  }
}
